=== FILE: README.md ===
# Flashcard study viewer: a verified model

This project is a Dafny model of the rules behind a flashcard study app for
the Maharashtra board (SSC and HSC standards). Three parts are modelled.

- **Slide pairing.** A flashcard set arrives as an ordered list of slide
  images, each tagged `front`, `back` or `title` and numbered. The viewer
  pairs every front at slide *n* with the first back at slide *n + 1*, and
  numbers the resulting cards 1, 2, ….
- **The study session.** This is the viewer component's state:
  - the position in the deck, whether the card is flipped, the zoom level;
  - bookmarks, and per-card `known`/`difficult`/`unknown` ratings;
  - the study clock and the end-of-session summary.

  Every handler is a pure transition on one `State` record. So are the
  keyboard shortcuts, the swipe gesture, the autoplay timeout and the
  delayed callbacks. The summary counts and the `mm:ss` clock text are
  derived from the state.
- **The browse page.** This covers the subject lists per standard, the
  standard/subject/search filter, thumbnail URLs, grouping of the filtered
  sets by subject, and the removal of title slides before the viewer opens.

Modules:

| module | file | contents |
|---|---|---|
| `Wrappers` | wrappers.dfy | `Option` |
| `Seqs` | seqs.dfy | `Array.prototype.filter`, subsequences, the transpositions a shuffle is built from |
| `Text` | text.dfy | decimal digits, `padStart(2, "0")`, ASCII lower-casing, substring search |
| `Pairing` | pairing.dfy | `structuredFlashcards` |
| `Session` | session.dfy | the session state, its invariant `Valid`, every transition, `Step`/`Run` |
| `SessionProps` | session_props.dfy | properties relating several transitions, and invariance of `Valid` |
| `Summary` | summary.dfy | `formatTime`, `stats`, the position badge |
| `Browse` | browse.dfy | the helpers of the set list page |

Modelling choices:

- **Zoom** is counted in quarter steps: 1.0 is 4, the floor 0.5 is 2 and the cap 3.0 is 12.
- **The shuffle** `sort(() => Math.random() - 0.5)` is modelled as a sequence
  of transpositions, passed as a parameter. Every permutation arises this way.
- **Timers carry no clock.**
  - The two `setTimeout` callbacks that change session state are never
    cancelled. They are queued in `State.pending`, and `FireTimer` fires any
    one of them. They are the 1 s summary after reaching the last card and
    the 300 ms advance after a rating. The third, which clears the drag
    direction, only drives an animation.
  - The autoplay timeout is only re-armed when autoplay, its speed, the
    index or the flip changes, so after a firing that changes nothing no
    new one exists. The model lets it fire at any time while autoplay is on
    (`AutoplayFires`), which allows more than the component does.
  - The one-second interval is `Tick`.
- **The carousel is absent while the summary is shown** (the component
  renders the summary instead of the Swiper and the card). Timer callbacks
  that would move it do nothing then, and `Step` ignores the carousel,
  flip, bookmark, zoom and drag events; keys are inert too. Only the header
  (timer, settings, reshuffle) stays usable.
- **The list page re-renders.** The viewer receives a freshly filtered
  array on every render of the list page, so the pairing memo and the
  mount effect run again (`PageRerendered`, `Session.Remount`): the shuffle
  is replaced by the paired order even while randomize stays on, and all
  ratings are forgotten.
- **Ratings** come only from the keyboard and from a drag of the card; both
  reach `UpdateCardStatus`.
- **Swiper's navigation** is modelled by its effect on the index:
  - `slideNext` and `slidePrev` stop at the ends;
  - `slideTo` clamps its target;
  - `isEnd` means the active slide is the last one, or there is none.
- **Buttons that are not always on screen.** The restart button is only
  rendered on the summary, and the reshuffle button only while randomize is
  on. `Step` ignores a `Restart` or a `Reshuffle` event otherwise.
- **Stale closure in `randomizeCards`.** It shuffles the deck of the render
  that called it. Switching randomize on therefore shuffles the deck that was
  on screen before the switch.

Where the code and the intended behaviour can be read differently, the code
is followed:

- **Autoplay and the summary.** When autoplay lands on the last card,
  `handleSlideChange` schedules the summary. So autoplay ends the session
  rather than cycling forever; it only wraps to the first card if its next
  timeout fires before that summary callback.
- **Restarting does not stop the summary.** The 1 s summary callback is
  never cancelled. Rating the last card lets the 300 ms advance show the
  summary before it fires. Restarting from that summary within the second
  still shows the summary over the fresh session, with its clock stopped
  (`SessionProps.SummarySurvivesReset`).
- **Keys.** `k` rates a card *difficult* and `d` rates it *known*.
- **The position badge** prints `index + 1` over the deck length, so an empty
  deck shows `1/0`.

## Model

| member | source | states |
|---|---|---|
| Pairing.FindBack | src/components/FlashcardViewer.tsx:523-526 | the lookup finds a back with slide number n exactly when one exists, and it is the first such record in array order |
| Pairing.CardFor | src/components/FlashcardViewer.tsx:527-533 | a card's id is the front's image name, its front URL is the upload base plus that name, and its back URL is the upload base plus the name of a back at slide n + 1 |
| Pairing.Paired | src/components/FlashcardViewer.tsx:518-538 | the deck has one card per matched front, card k is numbered k + 1 and takes its id from the k-th matched front |
| Pairing.MatchedUpTo | src/components/FlashcardViewer.tsx:520-536 | the positions that start a card are exactly the matched fronts, strictly increasing |
| Pairing.StructureFlashcards | src/components/FlashcardViewer.tsx:518-538 | the scanning loop produces one card per matched front, in input order, numbered 1..k |
| Pairing.PairingNumbering | src/components/FlashcardViewer.tsx:532 | card k carries number k + 1 |
| Pairing.PairingBound | src/components/FlashcardViewer.tsx:518-538 | the deck never has more cards than the input has front records |
| Pairing.PairingMatch | src/components/FlashcardViewer.tsx:520-534 | a record starts a card iff it is a front and some back has its slide number plus one; cards follow input order; each card uses the first such back and takes its id from the front |
| Pairing.BacksNeverStartCards | src/components/FlashcardViewer.tsx:521 | back and title records never start a card |
| Pairing.PairingExample | src/components/FlashcardViewer.tsx:518-538 | front 1, back 2 and an orphan front 5 give exactly one card, numbered 1 |
| Session.Remount | src/components/FlashcardViewer.tsx:650-657 | the mount effect running again puts the paired deck into the shuffle and every card back to unknown, and changes nothing else |
| Session.AllUnknown | src/components/FlashcardViewer.tsx:650-657 | the initial rating map has exactly the deck's ids as keys, all unknown |
| Session.Deck | src/components/FlashcardViewer.tsx:700-702 | the cards on screen are the last shuffle while randomize is on and the paired deck otherwise, and a permutation of the paired deck whenever the shuffle is |
| Session.CurrentCard | src/components/FlashcardViewer.tsx:816-817 | there is a current card exactly when the index is inside the deck, and it is the deck card at the index |
| Session.IsEnd | src/components/FlashcardViewer.tsx:679 | in a valid session the carousel is at its end exactly when the deck is empty or the current card is the last one |
| Session.Init | src/components/FlashcardViewer.tsx:540-559 | a fresh session is valid, shows the paired deck at card 1 unflipped with zoom 1 and the initial settings, has nothing bookmarked, all cards unknown, and the clock at 0 and running |
| Session.SlideChange | src/components/FlashcardViewer.tsx:767-783 | the same index changes nothing; a new index is taken and unflips the card, and the summary is scheduled exactly when the new index is the last one; nothing else changes |
| Session.SlideNext | src/components/FlashcardViewer.tsx:682 | moves one card on through the slide-change handler, and is a no-op at the end |
| Session.SlidePrev | src/components/FlashcardViewer.tsx:946 | moves one card back through the slide-change handler, and is a no-op at the start |
| Session.SlideTo | src/components/FlashcardViewer.tsx:680 | the slide-change handler applied to the target when it is inside the deck, and to the last card when it lies past the end |
| Session.Flip | src/components/FlashcardViewer.tsx:762-765 | negates `isFlipped` and changes nothing else |
| Session.Randomize | src/components/FlashcardViewer.tsx:785-794 | the new shuffled deck is a permutation of the deck on screen; position 0, unflipped, summary hidden; nothing else changes |
| Session.ChangeSetting | src/components/FlashcardViewer.tsx:796-811 | each setting takes its new value and the other settings are kept; randomize on shuffles the former deck, randomize off returns to the paired deck and keeps the last shuffle, both reset position, flip and summary and keep everything else; other settings change nothing else |
| Session.ToggleBookmark | src/components/FlashcardViewer.tsx:813-830 | membership of the current card's id is flipped and every other id keeps its membership; with no current card nothing changes |
| Session.UpdateCardStatus | src/components/FlashcardViewer.tsx:832-852 | the current card gets the rating, every other rating is kept, and the advance callback is queued; with no current card nothing changes |
| Session.ZoomStep | src/components/FlashcardViewer.tsx:854-871 | in gives min(z + 1, cap), out gives max(z - 1, floor), reset gives the default, and bounds are kept |
| Session.Zoom | src/components/FlashcardViewer.tsx:854-871 | only the zoom level changes, by the zoom step |
| Session.ToggleTimer | src/components/FlashcardViewer.tsx:873-875 | negates `timerActive` and changes nothing else |
| Session.Tick | src/components/FlashcardViewer.tsx:659-669 | the study time grows by one exactly while the timer is active |
| Session.ShowSummary | src/components/FlashcardViewer.tsx:694-698 | the summary is shown, and the clock stops when the summary first appears |
| Session.StatusAdvance | src/components/FlashcardViewer.tsx:839-847 | at the last card it is the summary transition, which stops the clock and keeps the position; otherwise it is the slide-change handler to the next card |
| Session.FireTimer | src/components/FlashcardViewer.tsx:773-777 | firing a queued callback removes it and applies the summary or the advance |
| Session.AutoplayFires | src/components/FlashcardViewer.tsx:672-692 | with autoplay off, or the summary up, nothing happens; at the end it is the slide-change handler to card 1, otherwise to the next card; only the position, the flip and the queue can change, and a move unflips |
| Session.SwipeLabel | src/components/FlashcardViewer.tsx:877-909 | a drag rates exactly when swipe is enabled and the offset or velocity on the mode's axis passes 100 or 500; a positive offset means difficult |
| Session.DragEnd | src/components/FlashcardViewer.tsx:877-909 | a qualifying drag rates the current card exactly as the rating keys do, and any other drag changes nothing |
| Session.Reset | src/components/FlashcardViewer.tsx:911-927 | card 1, unflipped, zoom 1, time 0, clock running, summary hidden, every deck card unknown; bookmarks, deck and settings kept |
| Session.KeyIntent | src/components/FlashcardViewer.tsx:942-1008 | for each intent, exactly which keys in which layout produce it |
| Session.Dispatch | src/components/FlashcardViewer.tsx:942-1008 | a key's action never changes the paired deck, the shuffled deck or the settings, and fullscreen and unmapped keys change nothing |
| Session.KeyDown | src/components/FlashcardViewer.tsx:940-941 | keys do nothing while the summary is shown |
| SessionProps.StepPreservesValid | src/components/FlashcardViewer.tsx:540-927 | every transition keeps the index on the deck, the deck a permutation of the paired cards, zoom in [0.5, 3], and ratings and bookmarks on deck ids |
| SessionProps.RunPreservesValid | src/components/FlashcardViewer.tsx:540-927 | any sequence of events keeps a valid session valid |
| SessionProps.ReachableStates | src/components/FlashcardViewer.tsx:540-927 | from mount on, whatever happens, the deck on screen is a permutation of the paired deck, the index is on it, zoom is in bounds and bookmarks name deck cards |
| SessionProps.RunKeepsCards | src/components/FlashcardViewer.tsx:518-538 | no event changes the paired deck |
| SessionProps.StepKeepsCards | src/components/FlashcardViewer.tsx:518-538 | no single event changes the paired deck |
| SessionProps.ZoomRunBounded | src/components/FlashcardViewer.tsx:854-871 | any sequence of zoom actions from within bounds stays within [0.5, 3] |
| SessionProps.ZoomSaturates | src/components/FlashcardViewer.tsx:859-862 | zooming in at 3 and out at 0.5 change nothing |
| SessionProps.BookmarkInvolution | src/components/FlashcardViewer.tsx:813-830 | toggling a bookmark twice restores the session |
| SessionProps.ResetIdempotent | src/components/FlashcardViewer.tsx:911-927 | restarting twice is restarting once |
| SessionProps.ResetForgetsProgress | src/components/FlashcardViewer.tsx:911-927 | two sessions with the same deck, settings, bookmarks and queue restart to the same state, whatever else differed |
| SessionProps.RateLastCardCompletes | src/components/FlashcardViewer.tsx:832-852 | rating the last card and firing its callback shows the summary, stops the clock and stays on the card |
| SessionProps.RateAdvances | src/components/FlashcardViewer.tsx:832-852 | rating any other card and firing its callback moves one card on, unflipped |
| SessionProps.AutoplayReachingEndSchedulesSummary | src/components/FlashcardViewer.tsx:672-692 | autoplay onto the last card queues the summary callback |
| SessionProps.StudyTimeFrozen | src/components/FlashcardViewer.tsx:694-698 | once the summary has stopped the clock, ticks, timeouts, keys and flips leave the study time and the summary alone |
| SessionProps.RemountUndoesShuffle | src/pages/FlashcardSet.tsx:165-168 | a re-render of the list page while randomize is on shows the paired order with randomize still on and forgets every rating, keeping the position and the bookmarks |
| SessionProps.RandomizeResetsPosition | src/components/FlashcardViewer.tsx:785-811 | randomize on, off and reshuffle all go to card 1 unflipped with the summary hidden, over a permutation of the paired deck |
| SessionProps.SummarySurvivesReset | src/components/FlashcardViewer.tsx:773-777 | moving onto the last card and rating it shows the summary through the advance; restarting from that summary and then firing the still-queued 1 s callback ends the fresh session at card 1 with the clock stopped at 0 |
| Text.NatToString | src/components/FlashcardViewer.tsx:750-753 | decimal digits without leading zeros, one digit exactly below 10 |
| Text.ParseNatToString | src/components/FlashcardViewer.tsx:750-753 | the decimal text of n reads back as n |
| Text.TwoDigits | src/components/FlashcardViewer.tsx:750-753 | `padStart(2, "0")` is the plain numeral from 10 on and a zero before it below 10, so never a leading zero beyond two digits; exactly two digits below 100, reading back as n |
| Text.PadZeros | src/components/FlashcardViewer.tsx:751-753 | `padStart(width, "0")` keeps the text at its end, preceded only by zeros, to a length of at least the width |
| Text.Lower | src/pages/FlashcardSet.tsx:113-118 | lower-casing keeps the length and maps each character by ASCII lower-casing |
| Text.Contains | src/pages/FlashcardSet.tsx:116-118 | `includes` holds exactly when the needle occurs at some position |
| Summary.FormatTime | src/components/FlashcardViewer.tsx:748-754 | the clock text has a colon three characters from its end |
| Summary.FormatTimeShape | src/components/FlashcardViewer.tsx:748-754 | the text is the minutes in digits, a colon and exactly two digits of seconds; five characters below 100 minutes, and a longer minute field has no leading zero |
| Summary.FormatTimeRoundTrip | src/components/FlashcardViewer.tsx:748-754 | the clock text reads back as the number of seconds |
| Summary.FormatTimeInjective | src/components/FlashcardViewer.tsx:748-754 | different times give different clock texts |
| Summary.StatsOf | src/components/FlashcardViewer.tsx:1025-1036 | total is the deck size, known and difficult count the ratings, bookmarked is the bookmark count |
| Summary.CountRated | src/components/FlashcardViewer.tsx:1027-1032 | the number of ids rated with a status is at most the number of rated ids, and 0 when no id has it |
| Summary.CountRatedUpdate | src/components/FlashcardViewer.tsx:1027-1032 | setting one id's rating to a status adds one to that status's count, unless the id already had it |
| Summary.RatingCounts | src/components/FlashcardViewer.tsx:832-838 | rating the card on screen known (difficult) when it was not yet adds one to the summary's known (difficult) count |
| Summary.StatsBalanced | src/components/FlashcardViewer.tsx:1025-1036 | in a valid session the counts are non-negative and add up to the deck size, with at most that many bookmarks |
| Summary.StatsAfterReset | src/components/FlashcardViewer.tsx:911-927 | after a restart every card counts as unknown |
| Summary.PositionLabel | src/components/FlashcardViewer.tsx:1069 | an empty deck shows 1/0 |
| Summary.PositionLabelReadsBack | src/components/FlashcardViewer.tsx:1069 | the badge is the plain numeral of the one-based position, a slash and the plain numeral of the deck size, each reading back as its number |
| Browse.SubjectOptions | src/pages/FlashcardSet.tsx:101-105 | SSC subjects for 9th and 10th, HSC subjects for 11th and 12th science, and none exactly for an unlisted standard |
| Browse.FilteredSets | src/pages/FlashcardSet.tsx:107-122 | an order-preserving subsequence keeping exactly the sets of the standard, of the subject unless it is "all", that match the search, each as often as it occurs |
| Browse.SearchMatch | src/pages/FlashcardSet.tsx:113-118 | an empty term matches every set, and a matching term is no longer than the title, the description or the author name |
| Browse.Keep | src/pages/FlashcardSet.tsx:109-119 | a kept set has the chosen standard and, unless the subject is "all", the chosen subject; with subject "all" and no term exactly the standard's sets are kept |
| Browse.UnfilteredStandard | src/pages/FlashcardSet.tsx:110-115 | with subject "all" and no search, exactly the standard's sets are kept |
| Browse.SearchSemantics | src/pages/FlashcardSet.tsx:113-118 | a non-empty term matches iff it occurs, ignoring ASCII case, in the title, the description or the author name (missing reads as "") |
| Browse.ThumbnailUrl | src/pages/FlashcardSet.tsx:124-128 | a non-empty id gives the upload base followed by the id, and a missing or empty one gives the placeholder |
| Browse.ThumbnailUrlInjective | src/pages/FlashcardSet.tsx:124-128 | distinct ids give distinct URLs, none equal to the placeholder |
| Browse.SetsOfSubject | src/pages/FlashcardSet.tsx:145-147 | holds exactly the filtered sets of that subject |
| Browse.SetsOfSubjectIsFilter | src/pages/FlashcardSet.tsx:145-147 | the per-subject list is the source's filter, an order-preserving subsequence |
| Browse.GroupSubjects | src/pages/FlashcardSet.tsx:144-152 | every group produced by the fold is non-empty |
| Browse.GroupSubjectsSpec | src/pages/FlashcardSet.tsx:144-152 | the groups are exactly the offered subjects with sets; each holds exactly that subject's filtered sets, under an option's caption |
| Browse.FindStandard | src/pages/FlashcardSet.tsx:143 | finds the listed standard with the given value, or none when it is unlisted |
| Browse.OptionsHaveStandard | src/pages/FlashcardSet.tsx:101-105 | every standard that has subjects is a listed standard |
| Browse.GroupedSets | src/pages/FlashcardSet.tsx:141-163 | either empty or the single key `standard`, under the standard's caption, holding the subject groups |
| Browse.GroupedSetsContents | src/pages/FlashcardSet.tsx:141-163 | a group appears iff some offered subject has a filtered set; then its subjects are exactly those and each holds exactly its subject's sets |
| Browse.UnlistedSubjectsHidden | src/pages/FlashcardSet.tsx:141-152 | a set whose subject is not offered for the standard appears in no group |
| Browse.ViewerSlides | src/pages/FlashcardSet.tsx:165-168 | the viewer gets the records in order with every title record removed and the rest kept with their multiplicities |

## Left out

- Rendering: JSX, animation, the Swiper configuration, lazy images and the settings dialog are presentation.
- Fullscreen handling, mobile detection and haptics are browser side effects. A fullscreen key press is recognised (`FullscreenIntent`) but leaves the session unchanged.
- Image preloading is asynchronous fetching and has no session state.
- The progress percentage is a float division, unguarded for an empty deck.
- Real time: delays and intervals are discrete transitions, fired in any order the environment chooses.
- Randomness: the shuffle is a parameter, a sequence of transpositions.
- `cardKey` and `dragDirection` only drive animations.
- The events a programmatic `slideTo(0, 0)` may raise through `handleSlideChange` during a reshuffle or restart are not modelled: the transition sets the position directly.
- The Swiper instance kept in a ref after the carousel unmounts is taken to do nothing.
- Analytics, the HTTP hook, the axios client, the app shell and the standards page are I/O wiring around the modelled core.
- Browse.GroupSubjects: the subject groups form a map, so the order in which the page lists them (the subject options' order, kept by the reduce and read back by `Object.entries`) is not modelled; only which groups exist and what each holds.
- A re-render of the list page that hands over changed records (new data from the query hook) rebuilds a different paired deck under the kept position; only the re-render with unchanged records (`PageRerendered`) is modelled, because the carousel's reaction to a deck changing under it is outside the model.
- Text.Lower: lower-cases ASCII letters only, because JavaScript's full Unicode case mapping is outside the model.
- Session.SwipeLabel: drag offsets and velocities are integers, because the browser reports floats.
- Session.ChangeSetting: the autoplay speed is stored as given, because the slider that bounds it is presentation.
- Duplicate ids are allowed: two fronts with the same image name give two cards that share one rating and one bookmark, as in the component.

=== FILE: browse.dfy ===
/** The browse page of flashcard sets: the subject lists per standard, the
    standard/subject/search filter, thumbnail resolution, grouping of the
    filtered sets by subject, and the slide list handed to the viewer. */
module Browse {
  import opened Wrappers
  import opened Text
  import opened Pairing
  import Seqs

  datatype Choice = Choice(value: string, caption: string)

  const Standards: seq<Choice> := [
    Choice("9th", "9th (SSC)"),
    Choice("10th", "10th (SSC)"),
    Choice("11th-sci", "11th Science (HSC)"),
    Choice("12th-sci", "12th Science (HSC)")
  ]

  const SscSubjects: seq<Choice> := [
    Choice("english", "English"),
    Choice("marathi", "Marathi"),
    Choice("hindi", "Hindi"),
    Choice("maths-1", "Mathematics 1 (Algebra)"),
    Choice("maths-2", "Mathematics 2 (Geometry)"),
    Choice("science-1", "Science 1"),
    Choice("science-2", "Science 2"),
    Choice("history-civics", "History & Civics"),
    Choice("geography", "Geography")
  ]

  const HscSubjects: seq<Choice> := [
    Choice("english", "English"),
    Choice("marathi", "Marathi"),
    Choice("hindi", "Hindi"),
    Choice("physics", "Physics"),
    Choice("chemistry", "Chemistry"),
    Choice("biology", "Biology"),
    Choice("maths-1", "Mathematics 1"),
    Choice("maths-2", "Mathematics 2")
  ]

  /** The fields of a flashcard set record that the page reads. */
  datatype FlashcardSet = FlashcardSet(
    id: string,
    title: string,
    description: string,
    thumbnailId: Option<string>,
    createdByName: Option<string>,
    standard: string,
    subject: string,
    flashcardsData: seq<SlideRecord>)

  /** `getSubjectOptions`. */
  function SubjectOptions(standard: string): (r: seq<Choice>)
    ensures standard == "9th" || standard == "10th" ==> r == SscSubjects
    ensures standard == "11th-sci" || standard == "12th-sci" ==> r == HscSubjects
    ensures r != [] <==> exists c :: c in Standards && c.value == standard
  {
    assert Standards[0].value == "9th" && Standards[1].value == "10th";
    assert Standards[2].value == "11th-sci" && Standards[3].value == "12th-sci";
    if standard == "9th" || standard == "10th" then SscSubjects
    else if standard == "11th-sci" || standard == "12th-sci" then HscSubjects
    else []
  }

  /** The search box test: an empty term accepts everything; otherwise the
      lower-cased term must occur in the lower-cased title, description or
      author name (a missing author name reads as ""). */
  function SearchMatch(fs: FlashcardSet, term: string): (m: bool)
    ensures term == "" ==> m
    ensures m ==> term == "" || |term| <= |fs.title| || |term| <= |fs.description| || |term| <= |fs.createdByName.GetOr("")|
  {
    var t := Lower(term);
    || term == ""
    || Contains(Lower(fs.title), t)
    || Contains(Lower(fs.description), t)
    || Contains(Lower(fs.createdByName.GetOr("")), t)
  }

  /** The predicate handed to `filter` for `filteredSets`. */
  function Keep(fs: FlashcardSet, standard: string, subject: string, term: string): (k: bool)
    ensures k ==> fs.standard == standard && (subject == "all" || fs.subject == subject)
    ensures subject == "all" && term == "" ==> (k <==> fs.standard == standard)
  {
    && fs.standard == standard
    && (subject == "all" || fs.subject == subject)
    && SearchMatch(fs, term)
  }

  /** `filteredSets`. */
  function FilteredSets(sets: seq<FlashcardSet>, standard: string, subject: string, term: string): (r: seq<FlashcardSet>)
    ensures Seqs.IsSubseq(r, sets)
    ensures forall x :: x in r ==> x.standard == standard
    ensures subject != "all" ==> forall x :: x in r ==> x.subject == subject
    ensures forall x :: x in r <==> x in sets && Keep(x, standard, subject, term)
    ensures forall x :: multiset(r)[x] == if Keep(x, standard, subject, term) then multiset(sets)[x] else 0
  {
    Seqs.Filter(sets, (x: FlashcardSet) => Keep(x, standard, subject, term))
  }

  /** With the subject on "all" and an empty search, the filter keeps
      exactly the sets of the standard. */
  lemma UnfilteredStandard(sets: seq<FlashcardSet>, standard: string)
    ensures forall x :: x in FilteredSets(sets, standard, "all", "") <==> x in sets && x.standard == standard
  {
  }

  /** A non-empty search keeps a set exactly when the term occurs,
      ignoring ASCII case, in its title, description or author name. */
  lemma SearchSemantics(x: FlashcardSet, term: string)
    requires term != ""
    ensures SearchMatch(x, term) <==>
      || (exists i: nat :: OccursAt(Lower(x.title), Lower(term), i))
      || (exists i: nat :: OccursAt(Lower(x.description), Lower(term), i))
      || (exists i: nat :: OccursAt(Lower(x.createdByName.GetOr("")), Lower(term), i))
  {
  }

  const PlaceholderThumbnail := "/placeholder-flashcard.png"

  /** `getThumbnailUrl`: a missing or empty id falls back to the placeholder. */
  function ThumbnailUrl(thumbnailId: Option<string>): (r: string)
    ensures thumbnailId.Some? && thumbnailId.value != "" ==>
      |r| > |UploadBase| && r[..|UploadBase|] == UploadBase && r[|UploadBase|..] == thumbnailId.value
    ensures thumbnailId.None? || thumbnailId.value == "" ==> r == PlaceholderThumbnail
  {
    match thumbnailId
    case Some(id) =>
      if id != "" then
        var r := UploadBase + id;
        assert r[..|UploadBase|] == UploadBase && r[|UploadBase|..] == id;
        r
      else PlaceholderThumbnail
    case None => PlaceholderThumbnail
  }

  /** Resolved thumbnails never collide: distinct ids give distinct URLs and
      no id gives the placeholder. */
  lemma ThumbnailUrlInjective(a: string, b: string)
    requires a != "" && b != "" && a != b
    ensures ThumbnailUrl(Some(a)) != ThumbnailUrl(Some(b))
    ensures ThumbnailUrl(Some(a)) != PlaceholderThumbnail
  {
    assert |ThumbnailUrl(Some(a))| > |PlaceholderThumbnail|;
  }

  /** The test `set.subject === subject.value` of the grouping filter. */
  function OfSubject(subject: string): FlashcardSet -> bool {
    (x: FlashcardSet) => x.subject == subject
  }

  /** The sets of one subject, in filtered order. */
  function SetsOfSubject(filtered: seq<FlashcardSet>, subject: string): (r: seq<FlashcardSet>)
    ensures forall x :: x in r <==> x in filtered && x.subject == subject
  {
    if filtered == [] then []
    else (if filtered[0].subject == subject then [filtered[0]] else []) + SetsOfSubject(filtered[1..], subject)
  }

  /** The per-subject list is the page's filter: an order-preserving
      subsequence that keeps every set of the subject as often as it occurs. */
  lemma {:induction false} SetsOfSubjectIsFilter(filtered: seq<FlashcardSet>, subject: string)
    ensures SetsOfSubject(filtered, subject) == Seqs.Filter(filtered, OfSubject(subject))
  {
    if filtered != [] {
      SetsOfSubjectIsFilter(filtered[1..], subject);
    }
  }

  datatype SubjectGroup = SubjectGroup(caption: string, sets: seq<FlashcardSet>)

  datatype StandardGroup = StandardGroup(caption: string, subjects: map<string, SubjectGroup>)

  /** Some filtered set has this subject. */
  predicate HasSets(filtered: seq<FlashcardSet>, subject: string) {
    exists x :: x in filtered && x.subject == subject
  }

  lemma HasSetsNonEmpty(filtered: seq<FlashcardSet>, subject: string)
    ensures HasSets(filtered, subject) <==> SetsOfSubject(filtered, subject) != []
  {
    if HasSets(filtered, subject) {
      var x :| x in filtered && x.subject == subject;
      assert x in SetsOfSubject(filtered, subject);
    }
  }

  /** Some option carries this value. */
  predicate Offered(options: seq<Choice>, v: string) {
    exists i :: 0 <= i < |options| && options[i].value == v
  }

  lemma OfferedSnoc(options: seq<Choice>, v: string)
    requires options != []
    ensures Offered(options, v) <==> Offered(options[..|options| - 1], v) || options[|options| - 1].value == v
  {
    var init := options[..|options| - 1];
    if Offered(init, v) {
      var i :| 0 <= i < |init| && init[i].value == v;
      assert options[i].value == v;
    }
    if Offered(options, v) && options[|options| - 1].value != v {
      var i :| 0 <= i < |options| && options[i].value == v;
      assert init[i].value == v;
    }
  }

  /** The subject gets a group: it is offered and some filtered set has it. */
  predicate Grouped(options: seq<Choice>, filtered: seq<FlashcardSet>, v: string) {
    Offered(options, v) && HasSets(filtered, v)
  }

  /** The `reduce` over the subject options, starting from no groups: each
      option whose subject has sets writes its group over any earlier one. */
  function GroupSubjects(options: seq<Choice>, filtered: seq<FlashcardSet>): (r: map<string, SubjectGroup>)
    ensures forall v :: v in r ==> r[v].sets != []
  {
    if options == [] then map[]
    else
      var last := options[|options| - 1];
      var acc := GroupSubjects(options[..|options| - 1], filtered);
      var sets := SetsOfSubject(filtered, last.value);
      if |sets| > 0 then acc[last.value := SubjectGroup(last.caption, sets)] else acc
  }

  /** The groups are exactly the offered subjects that have sets; each holds
      exactly the filtered sets of its subject, in order, under the caption
      of an option carrying that subject. */
  lemma {:induction false} GroupSubjectsSpec(options: seq<Choice>, filtered: seq<FlashcardSet>)
    ensures forall v :: v in GroupSubjects(options, filtered) <==> Grouped(options, filtered, v)
    ensures forall v :: v in GroupSubjects(options, filtered) ==> GroupSubjects(options, filtered)[v].sets == SetsOfSubject(filtered, v)
    ensures forall v :: v in GroupSubjects(options, filtered) ==>
      exists i :: 0 <= i < |options| && options[i].value == v && options[i].caption == GroupSubjects(options, filtered)[v].caption
  {
    if options != [] {
      var init := options[..|options| - 1];
      var last := options[|options| - 1];
      GroupSubjectsSpec(init, filtered);
      var acc := GroupSubjects(init, filtered);
      var r := GroupSubjects(options, filtered);
      HasSetsNonEmpty(filtered, last.value);
      forall v ensures v in r <==> Grouped(options, filtered, v) {
        OfferedSnoc(options, v);
      }
      forall v | v in r
        ensures exists i :: 0 <= i < |options| && options[i].value == v && options[i].caption == r[v].caption
      {
        if v == last.value && |SetsOfSubject(filtered, last.value)| > 0 {
          assert options[|options| - 1].value == v;
        } else {
          var i :| 0 <= i < |init| && init[i].value == v && init[i].caption == acc[v].caption;
          assert options[i] == init[i];
        }
      }
    }
  }

  /** `standards.find(s => s.value === standard)`. */
  function FindStandard(standard: string): (r: Option<Choice>)
    ensures r.Some? ==> r.value in Standards && r.value.value == standard
    ensures r.None? ==> forall c :: c in Standards ==> c.value != standard
  {
    if Standards[0].value == standard then Some(Standards[0])
    else if Standards[1].value == standard then Some(Standards[1])
    else if Standards[2].value == standard then Some(Standards[2])
    else if Standards[3].value == standard then Some(Standards[3])
    else None
  }

  /** Every standard that has subjects is one of the listed standards. */
  lemma OptionsHaveStandard(standard: string)
    requires SubjectOptions(standard) != []
    ensures FindStandard(standard).Some?
  {
  }

  /** The body of `groupedSets`, for given subject options and standard entry. */
  function GroupOptions(filtered: seq<FlashcardSet>, standard: string, options: seq<Choice>, info: Option<Choice>): (r: map<string, StandardGroup>)
    ensures r == map[] || r.Keys == {standard}
    ensures standard in r <==> info.Some? && |GroupSubjects(options, filtered)| > 0
    ensures standard in r ==> r[standard] == StandardGroup(info.value.caption, GroupSubjects(options, filtered))
  {
    var subjects := GroupSubjects(options, filtered);
    if |subjects| > 0 && info.Some? then
      map[standard := StandardGroup(info.value.caption, subjects)]
    else
      map[]
  }

  /** `groupedSets`: nothing, or the single standard, under its caption, with
      its subject groups. */
  function GroupedSets(filtered: seq<FlashcardSet>, standard: string): (r: map<string, StandardGroup>)
    ensures r == map[] || r.Keys == {standard}
    ensures standard in r ==> FindStandard(standard).Some? && r[standard].caption == FindStandard(standard).value.caption
    ensures standard in r ==> r[standard].subjects == GroupSubjects(SubjectOptions(standard), filtered)
  {
    GroupOptions(filtered, standard, SubjectOptions(standard), FindStandard(standard))
  }

  /** The page shows a group for the standard exactly when one of its
      subjects has a filtered set; each subject group holds exactly the
      filtered sets of that subject, and only offered subjects appear. */
  lemma GroupedSetsContents(filtered: seq<FlashcardSet>, standard: string)
    ensures GroupedSets(filtered, standard) != map[] <==> exists v :: Grouped(SubjectOptions(standard), filtered, v)
    ensures standard in GroupedSets(filtered, standard) ==>
      forall v :: v in GroupedSets(filtered, standard)[standard].subjects <==> Grouped(SubjectOptions(standard), filtered, v)
    ensures standard in GroupedSets(filtered, standard) ==>
      forall v :: v in GroupedSets(filtered, standard)[standard].subjects ==>
        GroupedSets(filtered, standard)[standard].subjects[v].sets == SetsOfSubject(filtered, v)
  {
    var options := SubjectOptions(standard);
    var subjects := GroupSubjects(options, filtered);
    GroupSubjectsSpec(options, filtered);
    GroupsPresent(options, filtered, subjects);
    var r := GroupedSets(filtered, standard);
    if exists v :: Grouped(options, filtered, v) {
      var v :| Grouped(options, filtered, v);
      assert options != [];
      OptionsHaveStandard(standard);
      assert r == map[standard := StandardGroup(FindStandard(standard).value.caption, subjects)];
    } else {
      assert r == map[];
    }
  }

  /** The fold yields some group exactly when some offered subject has sets. */
  lemma GroupsPresent(options: seq<Choice>, filtered: seq<FlashcardSet>, subjects: map<string, SubjectGroup>)
    requires subjects == GroupSubjects(options, filtered)
    ensures |subjects| > 0 <==> exists v :: Grouped(options, filtered, v)
  {
    GroupSubjectsSpec(options, filtered);
    if |subjects| > 0 {
      var v :| v in subjects;
      assert Grouped(options, filtered, v);
    } else {
      assert subjects.Keys == {};
    }
  }

  /** A filtered set whose subject is not among the standard's options
      appears in no group. */
  lemma UnlistedSubjectsHidden(filtered: seq<FlashcardSet>, standard: string, x: FlashcardSet)
    requires x in filtered
    requires !Offered(SubjectOptions(standard), x.subject)
    ensures standard in GroupedSets(filtered, standard) ==>
      forall v :: v in GroupedSets(filtered, standard)[standard].subjects ==>
        x !in GroupedSets(filtered, standard)[standard].subjects[v].sets
  {
    GroupSubjectsSpec(SubjectOptions(standard), filtered);
  }

  /** The slide list given to the viewer: every `title` record removed, the
      rest in order and with their multiplicities. */
  function ViewerSlides(data: seq<SlideRecord>): (r: seq<SlideRecord>)
    ensures Seqs.IsSubseq(r, data)
    ensures forall x :: x in r ==> x.kind != Title
    ensures forall x :: multiset(r)[x] == if x.kind == Title then 0 else multiset(data)[x]
  {
    Seqs.Filter(data, (x: SlideRecord) => x.kind != Title)
  }
}

=== FILE: pairing.dfy ===
/** The viewer's `structuredFlashcards` step: a flat, ordered list of slide
    images, each tagged front/back/title with a slide number, becomes the
    numbered deck of cards. A front at slide n is paired with the first back
    at slide n + 1 anywhere in the list; a front without one is dropped. */
module Pairing {
  import opened Wrappers

  datatype SlideType = Front | Back | Title

  datatype SlideRecord = SlideRecord(kind: SlideType, slideNumber: int, imageName: string)

  datatype Flashcard = Flashcard(id: string, frontImageUrl: string, backImageUrl: string, cardNumber: int)

  /** Prefix every image name is resolved against. */
  const UploadBase: string := "https://tools.easylearning.live/uploads/"

  predicate IsBackAt(data: seq<SlideRecord>, j: nat, n: int) {
    j < |data| && data[j].kind == Back && data[j].slideNumber == n
  }

  /** `data.find(card => card.type === "back" && card.slideNumber === n)`,
      as the position of the record found, searching from `from` on. */
  function FindBackFrom(data: seq<SlideRecord>, n: int, from: nat): (r: Option<nat>)
    requires from <= |data|
    ensures r.Some? ==> from <= r.value < |data| && IsBackAt(data, r.value, n)
    ensures r.Some? ==> forall j :: from <= j < r.value ==> !IsBackAt(data, j, n)
    ensures r.None? ==> forall j :: from <= j < |data| ==> !IsBackAt(data, j, n)
    decreases |data| - from
  {
    if from == |data| then None
    else if data[from].kind == Back && data[from].slideNumber == n then Some(from)
    else FindBackFrom(data, n, from + 1)
  }

  /** Some back record carries slide number `n`. */
  predicate HasBack(data: seq<SlideRecord>, n: int) {
    exists j: nat | j < |data| :: IsBackAt(data, j, n)
  }

  /** Position `j` holds the first back record with slide number `n`. */
  predicate FirstBack(data: seq<SlideRecord>, j: nat, n: int) {
    IsBackAt(data, j, n) && forall k :: 0 <= k < j ==> !IsBackAt(data, k, n)
  }

  function FindBack(data: seq<SlideRecord>, n: int): (r: Option<nat>)
    ensures r.Some? <==> HasBack(data, n)
    ensures r.Some? ==> FirstBack(data, r.value, n)
  {
    FindBackFrom(data, n, 0)
  }

  /** Record `i` starts a card: it is a front and a back follows its slide number. */
  predicate IsMatchedFront(data: seq<SlideRecord>, i: nat) {
    i < |data| && data[i].kind == Front && FindBack(data, data[i].slideNumber + 1).Some?
  }

  /** Positions among the first `upTo` records that start a card, in input order. */
  function MatchedUpTo(data: seq<SlideRecord>, upTo: nat): (m: seq<nat>)
    requires upTo <= |data|
    ensures forall k :: 0 <= k < |m| ==> m[k] < upTo && IsMatchedFront(data, m[k])
    ensures forall i: nat :: i in m <==> i < upTo && IsMatchedFront(data, i)
    ensures forall k, l :: 0 <= k < l < |m| ==> m[k] < m[l]
  {
    if upTo == 0 then []
    else MatchedUpTo(data, upTo - 1) + (if IsMatchedFront(data, upTo - 1) then [upTo - 1] else [])
  }

  function MatchedFronts(data: seq<SlideRecord>): seq<nat> {
    MatchedUpTo(data, |data|)
  }

  /** The card started by the front at position `i`, given its place in the deck. */
  function CardFor(data: seq<SlideRecord>, i: nat, cardNumber: int): (c: Flashcard)
    requires IsMatchedFront(data, i)
    ensures c.id == data[i].imageName
    ensures c.cardNumber == cardNumber
    ensures c.frontImageUrl == UploadBase + data[i].imageName
    ensures exists j: nat :: IsBackAt(data, j, data[i].slideNumber + 1) && c.backImageUrl == UploadBase + data[j].imageName
  {
    var back := data[FindBack(data, data[i].slideNumber + 1).value];
    Flashcard(data[i].imageName, UploadBase + data[i].imageName, UploadBase + back.imageName, cardNumber)
  }

  /** The deck built from `data`: one card per matched front, numbered from 1. */
  function Paired(data: seq<SlideRecord>): (cards: seq<Flashcard>)
    ensures |cards| == |MatchedFronts(data)|
    ensures forall k :: 0 <= k < |cards| ==>
      cards[k].cardNumber == k + 1 && cards[k].id == data[MatchedFronts(data)[k]].imageName
  {
    var m := MatchedFronts(data);
    seq(|m|, k requires 0 <= k < |m| => CardFor(data, m[k], k + 1))
  }

  /** The loop of `structuredFlashcards`: scan the records, and for every front look up
      its back and push a card numbered one past the cards so far. */
  method StructureFlashcards(data: seq<SlideRecord>) returns (cards: seq<Flashcard>)
    ensures cards == Paired(data)
    ensures forall k :: 0 <= k < |cards| ==> cards[k].cardNumber == k + 1
  {
    cards := [];
    var i := 0;
    while i < |data|
      invariant i <= |data|
      invariant |cards| == |MatchedUpTo(data, i)|
      invariant forall k :: 0 <= k < |cards| ==> cards[k] == CardFor(data, MatchedUpTo(data, i)[k], k + 1)
    {
      ghost var m := MatchedUpTo(data, i);
      assert MatchedUpTo(data, i + 1) == m + (if IsMatchedFront(data, i) then [i] else []);
      if data[i].kind == Front {
        var back := FindBack(data, data[i].slideNumber + 1);
        if back.Some? {
          var b := data[back.value];
          var card := Flashcard(data[i].imageName, UploadBase + data[i].imageName,
                                UploadBase + b.imageName, |cards| + 1);
          assert card == CardFor(data, i, |cards| + 1);
          cards := cards + [card];
        }
      }
      i := i + 1;
    }
    assert MatchedUpTo(data, i) == MatchedFronts(data);
  }

  /** Number of `front` records. */
  function CountFronts(data: seq<SlideRecord>): nat {
    if data == [] then 0
    else CountFronts(data[..|data| - 1]) + (if data[|data| - 1].kind == Front then 1 else 0)
  }

  lemma {:induction false} MatchedUpToBound(data: seq<SlideRecord>, upTo: nat)
    requires upTo <= |data|
    ensures |MatchedUpTo(data, upTo)| <= CountFronts(data[..upTo])
  {
    if upTo > 0 {
      MatchedUpToBound(data, upTo - 1);
      assert data[..upTo][..upTo - 1] == data[..upTo - 1];
    }
  }

  /** The deck never has more cards than the input has fronts. */
  lemma PairingBound(data: seq<SlideRecord>)
    ensures |Paired(data)| <= CountFronts(data)
  {
    MatchedUpToBound(data, |data|);
    assert data[..|data|] == data;
  }

  /** Cards are numbered 1, 2, ..., k in emission order. */
  lemma PairingNumbering(data: seq<SlideRecord>)
    ensures forall k :: 0 <= k < |Paired(data)| ==> Paired(data)[k].cardNumber == k + 1
  {
  }

  /** A record starts a card exactly when it is a front whose slide number
      plus one is the slide number of some back; cards follow the input order
      of their fronts, and card `k` uses the first such back in the input. */
  lemma PairingMatch(data: seq<SlideRecord>)
    ensures forall i: nat :: i in MatchedFronts(data) <==>
      i < |data| && data[i].kind == Front && HasBack(data, data[i].slideNumber + 1)
    ensures forall k, l :: 0 <= k < l < |MatchedFronts(data)| ==> MatchedFronts(data)[k] < MatchedFronts(data)[l]
    ensures forall k :: 0 <= k < |Paired(data)| ==>
      var i := MatchedFronts(data)[k];
      var b := FindBack(data, data[i].slideNumber + 1);
      && data[i].kind == Front
      && Paired(data)[k].id == data[i].imageName
      && b.Some?
      && Paired(data)[k].backImageUrl == UploadBase + data[b.value].imageName
      && FirstBack(data, b.value, data[i].slideNumber + 1)
  {
  }

  /** A back record never starts a card. */
  lemma BacksNeverStartCards(data: seq<SlideRecord>, i: nat)
    requires i < |data| && data[i].kind != Front
    ensures i !in MatchedFronts(data)
  {
  }

  /** Two slides paired, the orphan front at slide 5 dropped. */
  lemma PairingExample()
    ensures
      var data := [SlideRecord(Front, 1, "a"), SlideRecord(Back, 2, "b"), SlideRecord(Front, 5, "c")];
      Paired(data) == [Flashcard("a", UploadBase + "a", UploadBase + "b", 1)]
  {
    var data := [SlideRecord(Front, 1, "a"), SlideRecord(Back, 2, "b"), SlideRecord(Front, 5, "c")];
    assert IsMatchedFront(data, 0);
    assert !IsMatchedFront(data, 1);
    assert FindBack(data, 6).None?;
    assert !IsMatchedFront(data, 2);
    assert MatchedFronts(data) == [0];
    assert FindBack(data, 2) == Some(1);
    assert Paired(data)[0] == CardFor(data, 0, 1);
  }
}

=== FILE: seqs.dfy ===
/** Generic sequence facts shared by the browse page and the viewer:
    `Array.prototype.filter`, order-preserving subsequences, and the
    transpositions a shuffle is built from. */
module Seqs {

  /** `a` can be obtained from `b` by deleting elements, keeping the order. */
  predicate IsSubseq<T(==)>(a: seq<T>, b: seq<T>)
    decreases |b|
  {
    if a == [] then true
    else if b == [] then false
    else (a[0] == b[0] && IsSubseq(a[1..], b[1..])) || IsSubseq(a, b[1..])
  }

  /** `Array.prototype.filter`: the elements of `s` satisfying `p`, in order. */
  function Filter<T(==,!new)>(s: seq<T>, p: T -> bool): (r: seq<T>)
    ensures |r| <= |s|
    ensures IsSubseq(r, s)
    ensures forall x :: x in r <==> x in s && p(x)
    ensures forall x :: multiset(r)[x] == if p(x) then multiset(s)[x] else 0
  {
    if s == [] then []
    else
      var rest := Filter(s[1..], p);
      assert s == [s[0]] + s[1..];
      if p(s[0]) then
        assert ([s[0]] + rest)[1..] == rest;
        [s[0]] + rest
      else
        rest
  }

  /** Exchanges positions `i` and `j`; a pair outside the sequence changes nothing. */
  function Swap<T>(s: seq<T>, i: nat, j: nat): (r: seq<T>)
    ensures |r| == |s|
    ensures i < |s| && j < |s| ==> r[i] == s[j] && r[j] == s[i]
    ensures forall k :: 0 <= k < |s| && k != i && k != j ==> r[k] == s[k]
  {
    if i < |s| && j < |s| then s[i := s[j]][j := s[i]] else s
  }

  lemma SwapPermutes<T>(s: seq<T>, i: nat, j: nat)
    ensures multiset(Swap(s, i, j)) == multiset(s)
  {
    if i < |s| && j < |s| {
      var t := s[i := s[j]];
      assert multiset(t) == multiset(s) - multiset{s[i]} + multiset{s[j]};
      assert multiset(t[j := s[i]]) == multiset(t) - multiset{t[j]} + multiset{s[i]};
    }
  }

  /** Applies the transpositions in order; every permutation of `s` arises this way. */
  function ApplySwaps<T>(s: seq<T>, swaps: seq<(nat, nat)>): (r: seq<T>)
    ensures |r| == |s|
    ensures multiset(r) == multiset(s)
    decreases |swaps|
  {
    if swaps == [] then s
    else
      SwapPermutes(s, swaps[0].0, swaps[0].1);
      ApplySwaps(Swap(s, swaps[0].0, swaps[0].1), swaps[1..])
  }

  /** Equal multisets have equal element sets. */
  lemma SameMultisetSameElements<T>(a: seq<T>, b: seq<T>)
    requires multiset(a) == multiset(b)
    ensures forall x :: x in a <==> x in b
  {
    forall x
      ensures x in a <==> x in b
    {
      assert x in a <==> x in multiset(a);
      assert x in b <==> x in multiset(b);
    }
  }

  lemma SubsetCardinality<T>(a: set<T>, b: set<T>)
    requires a <= b
    ensures |a| <= |b|
  {
    if a != {} {
      var x :| x in a;
      SubsetCardinality(a - {x}, b - {x});
    }
  }
}

=== FILE: session.dfy ===
/** The viewer's study session. The component's `useState` hooks are folded
    into one `State` record and every handler, keyboard shortcut and timer
    callback becomes a pure transition on it. Timers carry no clock: a
    `setTimeout` that changes session state and is never cancelled is
    queued in `pending` and fires when the environment chooses
    (`FireTimer`); the cancellable autoplay timeout may fire at any time
    while autoplay is on (`AutoplayFires`), which allows more than the
    component, whose timeout is only re-armed when one of its dependencies
    changes; the one-second interval is `Tick`. */
module Session {
  import opened Wrappers
  import opened Pairing
  import Seqs

  datatype Status = Unknown | Known | Difficult

  /** What a rating gesture or button may set a card to. */
  type Label = st: Status | st != Unknown witness Known

  datatype Settings = Settings(isVertical: bool, isRandomized: bool, autoPlay: bool, autoPlaySpeed: int, enableSwipe: bool)

  const InitialSettings := Settings(true, false, false, 5, false)

  datatype SettingChange =
    | SetVertical(on: bool)
    | SetRandomized(on: bool)
    | SetAutoPlay(on: bool)
    | SetAutoPlaySpeed(seconds: int)
    | SetEnableSwipe(on: bool)

  /** Callbacks scheduled with `setTimeout` and never cleared: the 1 s
      summary after reaching the last card, the 300 ms advance after rating. */
  datatype Timer = SummaryDue | AdvanceDue

  datatype ZoomAction = ZoomIn | ZoomOut | ZoomReset

  /** Zoom is counted in quarter steps: 1.0 is 4, 0.5 is 2 and 3.0 is 12. */
  const ZoomFloor := 2
  const ZoomCap := 12
  const ZoomDefault := 4

  /** Drag end data of the card gesture, in whole pixels and pixels per second. */
  datatype Drag = Drag(offsetX: int, offsetY: int, velocityX: int, velocityY: int)

  const SwipeOffset := 100
  const SwipeVelocity := 500

  datatype State = State(
    cards: seq<Flashcard>,        // the paired deck, in pairing order
    shuffled: seq<Flashcard>,     // the last shuffle
    settings: Settings,
    index: nat,
    isFlipped: bool,
    zoom: int,
    bookmarks: set<string>,
    status: map<string, Status>,
    studyTime: nat,
    timerActive: bool,
    showSummary: bool,
    pending: seq<Timer>)

  /** `currentCards`: the shuffled deck while randomize is on, else the paired one. */
  function Deck(s: State): (d: seq<Flashcard>)
    ensures s.settings.isRandomized ==> d == s.shuffled
    ensures !s.settings.isRandomized ==> d == s.cards
    ensures multiset(s.shuffled) == multiset(s.cards) ==> multiset(d) == multiset(s.cards)
  {
    if s.settings.isRandomized then s.shuffled else s.cards
  }

  function Ids(cards: seq<Flashcard>): set<string> {
    set c | c in cards :: c.id
  }

  function AllUnknown(cards: seq<Flashcard>): (m: map<string, Status>)
    ensures m.Keys == Ids(cards)
    ensures forall id :: id in m ==> m[id] == Unknown
  {
    map id | id in Ids(cards) :: Unknown
  }

  function CurrentCard(s: State): (c: Option<Flashcard>)
    ensures c.Some? <==> s.index < |Deck(s)|
    ensures c.Some? ==> c.value in Deck(s)
    ensures c.Some? ==> c.value == Deck(s)[s.index]
  {
    if s.index < |Deck(s)| then Some(Deck(s)[s.index]) else None
  }

  /** The carousel's `isEnd`: the active slide is the last one, or there is none. */
  function IsEnd(s: State): (end: bool)
    ensures Valid(s) ==> (end <==> Deck(s) == [] || s.index == |Deck(s)| - 1)
  {
    s.index + 1 >= |Deck(s)|
  }

  /** What every reachable state satisfies. */
  predicate Valid(s: State) {
    && multiset(s.shuffled) == multiset(s.cards)
    && (s.index < |Deck(s)| || (|Deck(s)| == 0 && s.index == 0))
    && ZoomFloor <= s.zoom <= ZoomCap
    && s.status.Keys == Ids(s.cards)
    && s.bookmarks <= Ids(s.cards)
  }

  lemma DeckIds(s: State)
    requires multiset(s.shuffled) == multiset(s.cards)
    ensures Ids(Deck(s)) == Ids(s.cards)
    ensures multiset(Deck(s)) == multiset(s.cards)
  {
    Seqs.SameMultisetSameElements(s.shuffled, s.cards);
  }

  /** The state after mount: the deck copied into `shuffled`, every card
      `unknown`, nothing bookmarked, zoom 1, clock running. */
  function Init(cards: seq<Flashcard>): (s: State)
    ensures Valid(s)
    ensures s.cards == cards && Deck(s) == cards && s.index == 0 && !s.isFlipped && !s.showSummary
    ensures s.bookmarks == {} && s.timerActive && s.studyTime == 0 && s.pending == []
    ensures forall c :: c in cards ==> c.id in s.status && s.status[c.id] == Unknown
    ensures s.zoom == ZoomDefault && s.settings == InitialSettings
  {
    State(cards, cards, InitialSettings, 0, false, ZoomDefault, {}, AllUnknown(cards), 0, true, false, [])
  }

  /** The mount effect running again: the list page re-renders while the
      viewer is open and hands over a fresh array holding the same records,
      so the paired deck is rebuilt equal to itself and the effect copies it
      into `shuffled` and marks every card unknown. The position, the
      settings, the bookmarks and the clock are kept. */
  function Remount(s: State): (r: State)
    ensures r.shuffled == s.cards
    ensures r.status.Keys == Ids(s.cards)
    ensures forall id :: id in r.status ==> r.status[id] == Unknown
    ensures r == s.(shuffled := r.shuffled, status := r.status)
  {
    s.(shuffled := s.cards, status := AllUnknown(s.cards))
  }

  /** `handleSlideChange`: the carousel reports its active slide. */
  function SlideChange(s: State, newIndex: nat): (r: State)
    ensures newIndex == s.index ==> r == s
    ensures newIndex != s.index ==> r.index == newIndex && !r.isFlipped
    ensures newIndex != s.index ==>
      r.pending == s.pending + (if newIndex == |Deck(s)| - 1 then [SummaryDue] else [])
    ensures r.(index := s.index, isFlipped := s.isFlipped, pending := s.pending) == s
  {
    if newIndex == s.index then s
    else
      var scheduled := if newIndex == |Deck(s)| - 1 then [SummaryDue] else [];
      s.(index := newIndex, isFlipped := false, pending := s.pending + scheduled)
  }

  /** `slideNext`: moves one slide on unless at the end. */
  function SlideNext(s: State): (r: State)
    ensures s.index + 1 < |Deck(s)| ==> r == SlideChange(s, s.index + 1)
    ensures s.index + 1 >= |Deck(s)| ==> r == s
  {
    if s.index + 1 < |Deck(s)| then SlideChange(s, s.index + 1) else s
  }

  /** `slidePrev`: moves one slide back unless at the start. */
  function SlidePrev(s: State): (r: State)
    ensures s.index > 0 ==> r == SlideChange(s, s.index - 1)
    ensures s.index == 0 ==> r == s
  {
    if s.index > 0 then SlideChange(s, s.index - 1) else s
  }

  /** `slideTo(target)`: the carousel clamps the target into its slides. */
  function SlideTo(s: State, target: nat): (r: State)
    ensures |Deck(s)| == 0 ==> r == SlideChange(s, 0)
    ensures |Deck(s)| > 0 ==> r.index < |Deck(s)| && (target < |Deck(s)| ==> r.index == target)
    ensures target < |Deck(s)| ==> r == SlideChange(s, target)
    ensures |Deck(s)| > 0 && target >= |Deck(s)| ==> r == SlideChange(s, |Deck(s)| - 1)
  {
    var clamped := if |Deck(s)| == 0 then 0 else if target < |Deck(s)| then target else |Deck(s)| - 1;
    SlideChange(s, clamped)
  }

  /** `handleFlip`. */
  function Flip(s: State): (r: State)
    ensures r.isFlipped != s.isFlipped
    ensures r.(isFlipped := s.isFlipped) == s
  {
    s.(isFlipped := !s.isFlipped)
  }

  /** `randomizeCards`: `swaps` stands for the random comparator; the deck
      on screen is shuffled, and position, flip and summary are reset. */
  function Randomize(s: State, swaps: seq<(nat, nat)>): (r: State)
    ensures multiset(r.shuffled) == multiset(Deck(s))
    ensures r.index == 0 && !r.isFlipped && !r.showSummary
    ensures r.(shuffled := s.shuffled, index := s.index, isFlipped := s.isFlipped, showSummary := s.showSummary) == s
  {
    s.(shuffled := Seqs.ApplySwaps(Deck(s), swaps), index := 0, isFlipped := false, showSummary := false)
  }

  /** `handleSettingsChange`. Turning randomize on shuffles the deck that was
      on screen before the change; turning it off returns to the paired order. */
  function ChangeSetting(s: State, change: SettingChange, swaps: seq<(nat, nat)>): (r: State)
    ensures change.SetRandomized? ==> r.settings.isRandomized == change.on
    ensures change.SetRandomized? ==> r.index == 0 && !r.isFlipped && !r.showSummary
    ensures change.SetRandomized? && change.on ==> multiset(Deck(r)) == multiset(Deck(s))
    ensures change.SetRandomized? && !change.on ==> Deck(r) == s.cards
    ensures change.SetRandomized? ==> r.settings == s.settings.(isRandomized := change.on)
    ensures change.SetRandomized? ==>
      r.(settings := s.settings, shuffled := s.shuffled, index := s.index, isFlipped := s.isFlipped, showSummary := s.showSummary) == s
    ensures change.SetRandomized? && !change.on ==> r.shuffled == s.shuffled
    ensures !change.SetRandomized? ==> r == s.(settings := r.settings) && r.settings.isRandomized == s.settings.isRandomized
    ensures change.SetVertical? ==> r.settings == s.settings.(isVertical := change.on)
    ensures change.SetAutoPlay? ==> r.settings == s.settings.(autoPlay := change.on)
    ensures change.SetAutoPlaySpeed? ==> r.settings == s.settings.(autoPlaySpeed := change.seconds)
    ensures change.SetEnableSwipe? ==> r.settings == s.settings.(enableSwipe := change.on)
  {
    match change
    case SetVertical(on) => s.(settings := s.settings.(isVertical := on))
    case SetAutoPlay(on) => s.(settings := s.settings.(autoPlay := on))
    case SetAutoPlaySpeed(seconds) => s.(settings := s.settings.(autoPlaySpeed := seconds))
    case SetEnableSwipe(on) => s.(settings := s.settings.(enableSwipe := on))
    case SetRandomized(on) =>
      if on then
        var shuffled := Randomize(s, swaps);
        shuffled.(settings := s.settings.(isRandomized := true))
      else
        s.(settings := s.settings.(isRandomized := false), index := 0, isFlipped := false, showSummary := false)
  }

  /** `toggleBookmark`: flips the membership of the card on screen, if any. */
  function ToggleBookmark(s: State): (r: State)
    ensures CurrentCard(s).None? ==> r == s
    ensures CurrentCard(s).Some? ==>
      forall id :: id in r.bookmarks <==> (id in s.bookmarks <==> id != CurrentCard(s).value.id)
    ensures r == s.(bookmarks := r.bookmarks)
  {
    match CurrentCard(s)
    case None => s
    case Some(card) =>
      if card.id in s.bookmarks then s.(bookmarks := s.bookmarks - {card.id})
      else s.(bookmarks := s.bookmarks + {card.id})
  }

  /** `updateCardStatus`: records the rating of the card on screen and
      schedules the 300 ms advance. */
  function UpdateCardStatus(s: State, rating: Label): (r: State)
    ensures CurrentCard(s).None? ==> r == s
    ensures CurrentCard(s).Some? ==>
      var id := CurrentCard(s).value.id;
      && r.status.Keys == s.status.Keys + {id}
      && r.status[id] == rating
      && (forall other :: other in s.status && other != id ==> r.status[other] == s.status[other])
      && r.pending == s.pending + [AdvanceDue]
    ensures r == s.(status := r.status, pending := r.pending)
  {
    match CurrentCard(s)
    case None => s
    case Some(card) => s.(status := s.status[card.id := rating], pending := s.pending + [AdvanceDue])
  }

  /** The zoom update of `handleZoomChange`, in quarter steps. */
  function ZoomStep(z: int, action: ZoomAction): (r: int)
    ensures ZoomFloor <= z <= ZoomCap ==> ZoomFloor <= r <= ZoomCap
    ensures action == ZoomReset ==> r == ZoomDefault
    ensures action == ZoomIn ==> r <= ZoomCap && (r == z + 1 || r == ZoomCap) && (z < ZoomCap ==> r == z + 1)
    ensures action == ZoomOut ==> r >= ZoomFloor && (r == z - 1 || r == ZoomFloor) && (z > ZoomFloor ==> r == z - 1)
  {
    match action
    case ZoomIn => if z + 1 < ZoomCap then z + 1 else ZoomCap
    case ZoomOut => if z - 1 > ZoomFloor then z - 1 else ZoomFloor
    case ZoomReset => ZoomDefault
  }

  function Zoom(s: State, action: ZoomAction): (r: State)
    ensures r.zoom == ZoomStep(s.zoom, action)
    ensures r == s.(zoom := r.zoom)
  {
    s.(zoom := ZoomStep(s.zoom, action))
  }

  /** `toggleTimer`. */
  function ToggleTimer(s: State): (r: State)
    ensures r.timerActive != s.timerActive
    ensures r == s.(timerActive := r.timerActive)
  {
    s.(timerActive := !s.timerActive)
  }

  /** One firing of the one-second interval, which only runs while the timer is active. */
  function Tick(s: State): (r: State)
    ensures s.timerActive ==> r.studyTime == s.studyTime + 1
    ensures !s.timerActive ==> r == s
    ensures r == s.(studyTime := r.studyTime)
  {
    if s.timerActive then s.(studyTime := s.studyTime + 1) else s
  }

  /** `setShowSummary(true)` together with the effect that stops the clock
      when the summary appears (the effect only runs when the flag changes). */
  function ShowSummary(s: State): (r: State)
    ensures r.showSummary
    ensures !s.showSummary ==> !r.timerActive
    ensures s.showSummary ==> r == s
    ensures r == s.(showSummary := true, timerActive := r.timerActive)
  {
    if s.showSummary then s else s.(showSummary := true, timerActive := false)
  }

  /** The 300 ms callback of `updateCardStatus`: at the last slide the
      summary appears, otherwise the carousel moves on. While the summary is
      shown the carousel is unmounted and the callback changes nothing. */
  function StatusAdvance(s: State): (r: State)
    ensures s.showSummary ==> r == s
    ensures !s.showSummary && IsEnd(s) ==> r.showSummary && r.index == s.index
    ensures !s.showSummary && !IsEnd(s) ==> r.index == s.index + 1 && !r.showSummary
    ensures !s.showSummary && IsEnd(s) ==> r == ShowSummary(s) && !r.timerActive
    ensures !s.showSummary && !IsEnd(s) ==> r == SlideChange(s, s.index + 1) && !r.isFlipped
  {
    if s.showSummary then s
    else if IsEnd(s) then ShowSummary(s)
    else SlideNext(s)
  }

  /** The pending callback at position `k` fires and leaves the queue. */
  function FireTimer(s: State, k: nat): (r: State)
    ensures k >= |s.pending| ==> r == s
    ensures k < |s.pending| && s.pending[k] == SummaryDue ==> r.showSummary
    ensures k < |s.pending| && s.pending[k] == SummaryDue ==>
      r == ShowSummary(s.(pending := s.pending[..k] + s.pending[k + 1..]))
    ensures k < |s.pending| && s.pending[k] == AdvanceDue ==>
      r == StatusAdvance(s.(pending := s.pending[..k] + s.pending[k + 1..]))
  {
    if k >= |s.pending| then s
    else
      var rest := s.(pending := s.pending[..k] + s.pending[k + 1..]);
      match s.pending[k]
      case SummaryDue => ShowSummary(rest)
      case AdvanceDue => StatusAdvance(rest)
  }

  /** The autoplay timeout fires: it is only armed while autoplay is on; it
      wraps from the last slide to the first, otherwise moves on, in both
      cases through the slide-change handler. */
  function AutoplayFires(s: State): (r: State)
    ensures !s.settings.autoPlay || s.showSummary ==> r == s
    ensures s.settings.autoPlay && !s.showSummary && IsEnd(s) ==> r.index == 0
    ensures s.settings.autoPlay && !s.showSummary && !IsEnd(s) ==> r.index == s.index + 1
    ensures s.settings.autoPlay && !s.showSummary && IsEnd(s) ==> r == SlideChange(s, 0)
    ensures s.settings.autoPlay && !s.showSummary && !IsEnd(s) ==> r == SlideChange(s, s.index + 1)
    ensures r.(index := s.index, isFlipped := s.isFlipped, pending := s.pending) == s
    ensures r.index != s.index ==> !r.isFlipped
  {
    if !s.settings.autoPlay || s.showSummary then s
    else if IsEnd(s) then SlideTo(s, 0)
    else SlideNext(s)
  }

  function Abs(x: int): nat {
    if x < 0 then -x else x
  }

  /** The drag axis: horizontal cards in vertical mode, vertical otherwise. */
  function SwipeOffsetOf(settings: Settings, d: Drag): int {
    if settings.isVertical then d.offsetX else d.offsetY
  }

  function SwipeVelocityOf(settings: Settings, d: Drag): int {
    if settings.isVertical then d.velocityX else d.velocityY
  }

  /** The rating a drag gesture stands for, if it stands for one. */
  function SwipeLabel(settings: Settings, d: Drag): (r: Option<Label>)
    ensures r.Some? <==> (settings.enableSwipe &&
      (Abs(SwipeOffsetOf(settings, d)) > SwipeOffset || Abs(SwipeVelocityOf(settings, d)) > SwipeVelocity))
    ensures r.Some? ==> (r.value == Difficult <==> SwipeOffsetOf(settings, d) > 0)
  {
    if !settings.enableSwipe then None
    else
      var offset := SwipeOffsetOf(settings, d);
      var velocity := SwipeVelocityOf(settings, d);
      if Abs(offset) > SwipeOffset || Abs(velocity) > SwipeVelocity then
        Some(if offset > 0 then Difficult else Known)
      else None
  }

  /** `handleDragEnd`. */
  function DragEnd(s: State, d: Drag): (r: State)
    ensures SwipeLabel(s.settings, d).None? ==> r == s
    ensures SwipeLabel(s.settings, d).Some? ==> r == UpdateCardStatus(s, SwipeLabel(s.settings, d).value)
  {
    match SwipeLabel(s.settings, d)
    case None => s
    case Some(rating) => UpdateCardStatus(s, rating)
  }

  /** `resetStudySession`: back to the first card, unflipped, zoom 1, clock
      at zero and running, every card of the deck unrated. Bookmarks, the
      deck, the settings and already scheduled callbacks are kept. */
  function Reset(s: State): (r: State)
    ensures r.index == 0 && !r.isFlipped && !r.showSummary
    ensures r.zoom == ZoomDefault && r.studyTime == 0 && r.timerActive
    ensures r.status.Keys == Ids(Deck(s))
    ensures forall id :: id in r.status ==> r.status[id] == Unknown
    ensures r.bookmarks == s.bookmarks && Deck(r) == Deck(s) && r.pending == s.pending
    ensures r.settings == s.settings && r.cards == s.cards && r.shuffled == s.shuffled
  {
    s.(index := 0, isFlipped := false, showSummary := false, zoom := ZoomDefault,
       studyTime := 0, status := AllUnknown(Deck(s)), timerActive := true)
  }

  /** What a key press asks for. */
  datatype Intent =
    | Previous
    | Next
    | Rate(rating: Label)
    | FlipIntent
    | BookmarkIntent
    | ZoomIntent(action: ZoomAction)
    | FullscreenIntent
    | NoIntent

  /** The keyboard map of the viewer. The arrows along the carousel's axis
      navigate; across it, in horizontal mode, up and down rate. */
  function KeyIntent(key: string, isVertical: bool, isFullscreen: bool): (r: Intent)
    ensures r == Previous <==> (key == "ArrowLeft" && !isVertical) || (key == "ArrowUp" && isVertical)
    ensures r == Next <==> (key == "ArrowRight" && !isVertical) || (key == "ArrowDown" && isVertical)
    ensures r == Rate(Known) <==> (key == "ArrowUp" && !isVertical) || key == "d"
    ensures r == Rate(Difficult) <==> (key == "ArrowDown" && !isVertical) || key == "k"
    ensures r == FlipIntent <==> key == " "
    ensures r == BookmarkIntent <==> key == "b"
    ensures r == ZoomIntent(ZoomReset) <==> key == "r"
    ensures r == ZoomIntent(ZoomIn) <==> key == "+"
    ensures r == ZoomIntent(ZoomOut) <==> key == "-"
    ensures r == FullscreenIntent <==> key == "f" || key == "F11" || (key == "Escape" && isFullscreen)
  {
    if key == "ArrowLeft" then (if isVertical then NoIntent else Previous)
    else if key == "ArrowRight" then (if isVertical then NoIntent else Next)
    else if key == "ArrowUp" then (if isVertical then Previous else Rate(Known))
    else if key == "ArrowDown" then (if isVertical then Next else Rate(Difficult))
    else if key == " " then FlipIntent
    else if key == "b" then BookmarkIntent
    else if key == "k" then Rate(Difficult)
    else if key == "d" then Rate(Known)
    else if key == "r" then ZoomIntent(ZoomReset)
    else if key == "+" then ZoomIntent(ZoomIn)
    else if key == "-" then ZoomIntent(ZoomOut)
    else if key == "f" || key == "F11" then FullscreenIntent
    else if key == "Escape" && isFullscreen then FullscreenIntent
    else NoIntent
  }

  /** Carries out an intent; fullscreen only affects the browser. */
  function Dispatch(s: State, intent: Intent): (r: State)
    ensures r.cards == s.cards && r.shuffled == s.shuffled && r.settings == s.settings
    ensures intent.FullscreenIntent? || intent.NoIntent? ==> r == s
  {
    match intent
    case Previous => SlidePrev(s)
    case Next => SlideNext(s)
    case Rate(rating) => UpdateCardStatus(s, rating)
    case FlipIntent => Flip(s)
    case BookmarkIntent => ToggleBookmark(s)
    case ZoomIntent(action) => Zoom(s, action)
    case FullscreenIntent => s
    case NoIntent => s
  }

  /** The keydown listener, which is inert while the summary is shown. */
  function KeyDown(s: State, key: string, isFullscreen: bool): (r: State)
    ensures s.showSummary ==> r == s
    ensures !s.showSummary ==> r == Dispatch(s, KeyIntent(key, s.settings.isVertical, isFullscreen))
  {
    if s.showSummary then s else Dispatch(s, KeyIntent(key, s.settings.isVertical, isFullscreen))
  }

  /** Everything that can happen to a session. A card is rated only by a
      key or a drag. The carousel and the card with its buttons are replaced
      by the summary while it is shown, the reshuffle button is only
      rendered while randomize is on, and the restart button only on the
      summary, so `Step` ignores those events otherwise. */
  datatype Event =
    | CarouselNext
    | CarouselPrev
    | CarouselTo(target: nat)
    | FlipCard
    | Reshuffle(swaps: seq<(nat, nat)>)
    | Setting(change: SettingChange, swaps: seq<(nat, nat)>)
    | BookmarkCard
    | ZoomCard(action: ZoomAction)
    | TimerToggle
    | DragEnded(drag: Drag)
    | Restart
    | ClockTick
    | AutoplayTimeout
    | TimerFired(k: nat)
    | KeyPressed(key: string, isFullscreen: bool)
    | PageRerendered

  /** Events raised by the carousel or by the card and its buttons. */
  predicate OnCard(e: Event) {
    e.CarouselNext? || e.CarouselPrev? || e.CarouselTo? || e.FlipCard? || e.BookmarkCard? || e.ZoomCard? || e.DragEnded?
  }

  function Step(s: State, e: Event): State {
    if OnCard(e) && s.showSummary then s
    else match e
    case CarouselNext => SlideNext(s)
    case CarouselPrev => SlidePrev(s)
    case CarouselTo(target) => SlideTo(s, target)
    case FlipCard => Flip(s)
    case Reshuffle(swaps) => if s.settings.isRandomized then Randomize(s, swaps) else s
    case Setting(change, swaps) => ChangeSetting(s, change, swaps)
    case BookmarkCard => ToggleBookmark(s)
    case ZoomCard(action) => Zoom(s, action)
    case TimerToggle => ToggleTimer(s)
    case DragEnded(drag) => DragEnd(s, drag)
    case Restart => if s.showSummary then Reset(s) else s
    case ClockTick => Tick(s)
    case AutoplayTimeout => AutoplayFires(s)
    case TimerFired(k) => FireTimer(s, k)
    case KeyPressed(key, isFullscreen) => KeyDown(s, key, isFullscreen)
    case PageRerendered => Remount(s)
  }

  function Run(s: State, events: seq<Event>): State
    decreases |events|
  {
    if events == [] then s else Run(Step(s, events[0]), events[1..])
  }
}

=== FILE: session_props.dfy ===
/** Properties of the study session that relate several transitions. */
module SessionProps {
  import opened Pairing
  import opened Session

  /** The slide-change handler keeps a session valid for any target on the deck. */
  lemma SlideChangeValid(s: State, newIndex: nat)
    requires Valid(s) && (newIndex < |Deck(s)| || (|Deck(s)| == 0 && newIndex == 0))
    ensures Valid(SlideChange(s, newIndex))
  {
  }

  lemma MovesValid(s: State, target: nat)
    requires Valid(s)
    ensures Valid(SlideNext(s)) && Valid(SlidePrev(s)) && Valid(SlideTo(s, target))
    ensures Valid(StatusAdvance(s)) && Valid(AutoplayFires(s))
  {
    if s.index + 1 < |Deck(s)| {
      SlideChangeValid(s, s.index + 1);
    }
    if s.index > 0 {
      SlideChangeValid(s, s.index - 1);
    }
    if |Deck(s)| > 0 {
      SlideChangeValid(s, 0);
    }
  }

  lemma RandomizeValid(s: State, swaps: seq<(nat, nat)>, change: SettingChange)
    requires Valid(s)
    ensures Valid(Randomize(s, swaps)) && Valid(ChangeSetting(s, change, swaps))
  {
    DeckIds(s);
    DeckIds(Randomize(s, swaps));
    DeckIds(ChangeSetting(s, change, swaps));
  }

  lemma RatingValid(s: State, rating: Label, d: Drag)
    requires Valid(s)
    ensures Valid(UpdateCardStatus(s, rating)) && Valid(DragEnd(s, d)) && Valid(ToggleBookmark(s))
  {
    DeckIds(s);
  }

  lemma ResetValid(s: State)
    requires Valid(s)
    ensures Valid(Reset(s))
  {
    DeckIds(s);
  }

  lemma RemountValid(s: State)
    requires Valid(s)
    ensures Valid(Remount(s))
  {
    DeckIds(s);
  }

  lemma LocalValid(s: State, action: ZoomAction)
    requires Valid(s)
    ensures Valid(Flip(s)) && Valid(Zoom(s, action)) && Valid(ToggleTimer(s)) && Valid(Tick(s))
  {
  }

  lemma FireTimerValid(s: State, k: nat)
    requires Valid(s)
    ensures Valid(FireTimer(s, k))
  {
    if k < |s.pending| {
      var rest := s.(pending := s.pending[..k] + s.pending[k + 1..]);
      assert Valid(rest);
      MovesValid(rest, 0);
    }
  }

  lemma DispatchValid(s: State, intent: Intent)
    requires Valid(s)
    ensures Valid(Dispatch(s, intent))
  {
    match intent
    case Previous => MovesValid(s, 0);
    case Next => MovesValid(s, 0);
    case Rate(rating) => RatingValid(s, rating, Drag(0, 0, 0, 0));
    case BookmarkIntent => RatingValid(s, Known, Drag(0, 0, 0, 0));
    case _ =>
  }

  lemma KeyDownValid(s: State, key: string, isFullscreen: bool)
    requires Valid(s)
    ensures Valid(KeyDown(s, key, isFullscreen))
  {
    if !s.showSummary {
      DispatchValid(s, KeyIntent(key, s.settings.isVertical, isFullscreen));
    }
  }

  lemma StepMoveValid(s: State, e: Event)
    requires Valid(s) && (e.CarouselNext? || e.CarouselPrev? || e.CarouselTo? || e.AutoplayTimeout?)
    ensures Valid(Step(s, e))
  {
    MovesValid(s, if e.CarouselTo? then e.target else 0);
  }

  lemma StepShuffleValid(s: State, e: Event)
    requires Valid(s) && (e.Reshuffle? || e.Setting?)
    ensures Valid(Step(s, e))
  {
    RandomizeValid(s, e.swaps, if e.Setting? then e.change else SetVertical(true));
  }

  lemma StepRatingValid(s: State, e: Event)
    requires Valid(s) && (e.BookmarkCard? || e.DragEnded?)
    ensures Valid(Step(s, e))
  {
    RatingValid(s, Known, if e.DragEnded? then e.drag else Drag(0, 0, 0, 0));
  }

  lemma StepLocalValid(s: State, e: Event)
    requires Valid(s) && (e.FlipCard? || e.ZoomCard? || e.TimerToggle? || e.ClockTick?)
    ensures Valid(Step(s, e))
  {
    LocalValid(s, if e.ZoomCard? then e.action else ZoomReset);
  }

  /** Every transition keeps a session valid: the position stays on a card
      of the deck, the deck stays a permutation of the paired cards, zoom
      stays within 0.5 to 3.0, and ratings and bookmarks only name cards of
      the deck. */
  lemma StepPreservesValid(s: State, e: Event)
    requires Valid(s)
    ensures Valid(Step(s, e))
  {
    if e.CarouselNext? || e.CarouselPrev? || e.CarouselTo? || e.AutoplayTimeout? {
      StepMoveValid(s, e);
    } else if e.Reshuffle? || e.Setting? {
      StepShuffleValid(s, e);
    } else if e.BookmarkCard? || e.DragEnded? {
      StepRatingValid(s, e);
    } else if e.FlipCard? || e.ZoomCard? || e.TimerToggle? || e.ClockTick? {
      StepLocalValid(s, e);
    } else if e.Restart? {
      ResetValid(s);
    } else if e.TimerFired? {
      FireTimerValid(s, e.k);
    } else if e.PageRerendered? {
      RemountValid(s);
    } else {
      KeyDownValid(s, e.key, e.isFullscreen);
    }
  }

  lemma {:induction false} RunPreservesValid(s: State, events: seq<Event>)
    requires Valid(s)
    ensures Valid(Run(s, events))
    decreases |events|
  {
    if events != [] {
      StepPreservesValid(s, events[0]);
      RunPreservesValid(Step(s, events[0]), events[1..]);
    }
  }

  /** From mount on, whatever happens: the deck on screen is a permutation
      of the paired deck, the position is on it, and zoom is within bounds. */
  lemma ReachableStates(cards: seq<Flashcard>, events: seq<Event>)
    ensures var s := Run(Init(cards), events);
      && multiset(Deck(s)) == multiset(cards)
      && (s.index < |cards| || (cards == [] && s.index == 0))
      && ZoomFloor <= s.zoom <= ZoomCap
      && s.bookmarks <= Ids(cards)
  {
    RunPreservesValid(Init(cards), events);
    var s := Run(Init(cards), events);
    DeckIds(s);
    RunKeepsCards(Init(cards), events);
  }

  lemma {:induction false} RunKeepsCards(s: State, events: seq<Event>)
    ensures Run(s, events).cards == s.cards
    decreases |events|
  {
    if events != [] {
      StepKeepsCards(s, events[0]);
      RunKeepsCards(Step(s, events[0]), events[1..]);
    }
  }

  lemma StepKeepsCards(s: State, e: Event)
    ensures Step(s, e).cards == s.cards
  {
    if e.KeyPressed? && !s.showSummary {
      assert Step(s, e) == Dispatch(s, KeyIntent(e.key, s.settings.isVertical, e.isFullscreen));
    }
  }

  /** Zoom actions in any number and order, from 1.0, stay within [0.5, 3.0]. */
  lemma {:induction false} ZoomRunBounded(z: int, actions: seq<ZoomAction>)
    requires ZoomFloor <= z <= ZoomCap
    ensures ZoomFloor <= ZoomAll(z, actions) <= ZoomCap
    decreases |actions|
  {
    if actions != [] {
      ZoomRunBounded(ZoomStep(z, actions[0]), actions[1..]);
    }
  }

  function ZoomAll(z: int, actions: seq<ZoomAction>): int
    decreases |actions|
  {
    if actions == [] then z else ZoomAll(ZoomStep(z, actions[0]), actions[1..])
  }

  /** Zooming in at 3.0 and out at 0.5 change nothing. */
  lemma ZoomSaturates()
    ensures ZoomStep(ZoomCap, ZoomIn) == ZoomCap
    ensures ZoomStep(ZoomFloor, ZoomOut) == ZoomFloor
  {
  }

  /** Bookmarking twice in a row restores the bookmarks. */
  lemma BookmarkInvolution(s: State)
    ensures ToggleBookmark(ToggleBookmark(s)) == s
  {
    var t := ToggleBookmark(s);
    assert CurrentCard(t) == CurrentCard(s);
    if CurrentCard(s).Some? {
      assert t.bookmarks != s.bookmarks;
      assert ToggleBookmark(t).bookmarks == s.bookmarks;
    }
  }

  /** Restarting twice is restarting once. */
  lemma ResetIdempotent(s: State)
    ensures Reset(Reset(s)) == Reset(s)
  {
  }

  /** A restart always lands in the same session state, whatever happened
      since the last one, apart from bookmarks, settings, deck and queue. */
  lemma ResetForgetsProgress(s: State, t: State)
    requires s.cards == t.cards && s.shuffled == t.shuffled && s.settings == t.settings
    requires s.bookmarks == t.bookmarks && s.pending == t.pending
    ensures Reset(s) == Reset(t)
  {
  }

  /** Rating the last card and letting the 300 ms callback fire ends the
      session without moving to another card. */
  lemma RateLastCardCompletes(s: State, rating: Label)
    requires Valid(s) && !s.showSummary
    requires |Deck(s)| > 0 && s.index == |Deck(s)| - 1
    ensures var t := UpdateCardStatus(s, rating);
      var r := FireTimer(t, |t.pending| - 1);
      r.showSummary && !r.timerActive && r.index == s.index
  {
    var t := UpdateCardStatus(s, rating);
    assert t.pending[|t.pending| - 1] == AdvanceDue;
    assert t.pending[..|t.pending| - 1] + t.pending[|t.pending|..] == s.pending;
  }

  /** Rating any other card moves on to the next card when the callback fires. */
  lemma RateAdvances(s: State, rating: Label)
    requires Valid(s) && !s.showSummary
    requires s.index + 1 < |Deck(s)|
    ensures var t := UpdateCardStatus(s, rating);
      var r := FireTimer(t, |t.pending| - 1);
      r.index == s.index + 1 && !r.isFlipped && !r.showSummary
  {
    var t := UpdateCardStatus(s, rating);
    assert t.pending[|t.pending| - 1] == AdvanceDue;
  }

  /** Autoplay that reaches the last card schedules the summary, exactly as
      a manual move there does: autoplay does not loop past the end unless
      that callback is still pending when the next autoplay timeout fires. */
  lemma AutoplayReachingEndSchedulesSummary(s: State)
    requires Valid(s) && s.settings.autoPlay && !s.showSummary
    requires s.index + 2 == |Deck(s)|
    ensures AutoplayFires(s).pending == s.pending + [SummaryDue]
    ensures IsEnd(AutoplayFires(s))
  {
  }

  /** The events that leave the clock alone once the summary has stopped it. */
  predicate Passive(e: Event) {
    e.ClockTick? || e.AutoplayTimeout? || e.KeyPressed? || e.TimerFired? || e.FlipCard?
  }

  /** Once the summary is up and the clock stopped, study time stays frozen
      under ticks, timeouts, keys and flips. */
  lemma {:induction false} StudyTimeFrozen(s: State, events: seq<Event>)
    requires s.showSummary && !s.timerActive
    requires forall i :: 0 <= i < |events| ==> Passive(events[i])
    ensures Run(s, events).studyTime == s.studyTime
    ensures Run(s, events).showSummary && !Run(s, events).timerActive
    decreases |events|
  {
    if events != [] {
      var t := Step(s, events[0]);
      assert Passive(events[0]);
      if events[0].TimerFired? && events[0].k < |s.pending| {
        var k := events[0].k;
        var rest := s.(pending := s.pending[..k] + s.pending[k + 1..]);
        assert rest.showSummary;
      }
      assert t.studyTime == s.studyTime && t.showSummary && !t.timerActive;
      StudyTimeFrozen(t, events[1..]);
    }
  }

  /** Turning randomize on, reshuffling and turning it off all return to the
      first card, unflipped, with the summary hidden, and the deck on screen
      is a permutation of the paired deck. */
  lemma RandomizeResetsPosition(s: State, swaps: seq<(nat, nat)>, on: bool)
    requires Valid(s)
    ensures var r := ChangeSetting(s, SetRandomized(on), swaps);
      r.index == 0 && !r.isFlipped && !r.showSummary && multiset(Deck(r)) == multiset(s.cards)
    ensures var r := Randomize(s, swaps);
      r.index == 0 && !r.isFlipped && !r.showSummary && multiset(r.shuffled) == multiset(s.cards)
  {
    DeckIds(s);
  }

  /** Rating the last card with only the summary callback queued: the
      advance shows the summary and leaves that callback queued. */
  lemma RateAtEndShowsSummary(n: State, rating: Label)
    requires !n.showSummary && n.index + 1 == |Deck(n)| && n.pending == [SummaryDue]
    ensures var t := FireTimer(UpdateCardStatus(n, rating), 1);
      t.showSummary && !t.timerActive && t.pending == [SummaryDue]
  {
    var q := UpdateCardStatus(n, rating);
    assert q.pending == [SummaryDue, AdvanceDue];
    assert q.pending[..1] + q.pending[2..] == [SummaryDue];
    assert FireTimer(q, 1) == StatusAdvance(q.(pending := [SummaryDue]));
  }

  /** Restarting from the summary keeps the queued summary callback, which
      then ends the fresh session. */
  lemma RestartThenSummary(t: State)
    requires t.showSummary && t.pending == [SummaryDue]
    ensures var u := Step(t, Restart);
      var r := FireTimer(u, 0);
      && u.index == 0 && u.studyTime == 0 && !u.showSummary && u.timerActive
      && r.showSummary && !r.timerActive && r.index == 0 && r.studyTime == 0
  {
    assert Step(t, Restart) == Reset(t);
  }

  /** The 1 s summary callback is never cancelled. Moving onto the last
      card queues it; rating that card lets the 300 ms advance show the
      summary first; restarting from the summary before the 1 s callback
      fires keeps it queued, and when it fires the fresh session ends at
      once with its clock stopped. */
  lemma SummarySurvivesReset(s: State, rating: Label)
    requires Valid(s) && !s.showSummary && s.pending == []
    requires s.index + 2 == |Deck(s)|
    ensures var t := FireTimer(UpdateCardStatus(SlideNext(s), rating), 1);
      var u := Step(t, Restart);
      var r := FireTimer(u, 0);
      && t.showSummary && t.pending == [SummaryDue]
      && u.index == 0 && u.studyTime == 0 && !u.showSummary && u.timerActive
      && r.showSummary && !r.timerActive && r.index == 0 && r.studyTime == 0
  {
    var n := SlideNext(s);
    assert n.pending == [SummaryDue] && n.index + 1 == |Deck(n)| && !n.showSummary;
    RateAtEndShowsSummary(n, rating);
    RestartThenSummary(FireTimer(UpdateCardStatus(n, rating), 1));
  }

  /** A re-render of the list page while randomize is on puts the paired
      order back on screen, with randomize still on, and forgets every
      rating; the position and the bookmarks stay. */
  lemma RemountUndoesShuffle(s: State)
    requires Valid(s) && s.settings.isRandomized
    ensures var r := Step(s, PageRerendered);
      && r.settings.isRandomized && Deck(r) == s.cards
      && r.index == s.index && r.bookmarks == s.bookmarks
      && (forall c :: c in s.cards ==> c.id in r.status && r.status[c.id] == Unknown)
  {
  }
}

=== FILE: summary.dfy ===
/** What the viewer reports about a session: the clock text, the summary
    counts and the position badge. */
module Summary {
  import opened Wrappers
  import opened Text
  import opened Session
  import Seqs

  /** Minutes and seconds texts around a colon. */
  function JoinClock(mm: string, ss: string): (r: string)
    requires |mm| >= 2 && |ss| == 2
    ensures |r| >= 5 && r[|r| - 3] == ':'
    ensures r[..|r| - 3] == mm && r[|r| - 2..] == ss
  {
    var r := mm + ":" + ss;
    assert r[..|r| - 3] == mm;
    assert r[|r| - 2..] == ss;
    r
  }

  /** The clock text for a minute count and a second count. */
  function Clock(minutes: nat, secs: nat): (r: string)
    requires secs < 100
    ensures |r| >= 5 && r[|r| - 3] == ':'
  {
    JoinClock(TwoDigits(minutes), TwoDigits(secs))
  }

  lemma ClockMinutes(minutes: nat, secs: nat, r: string)
    requires secs < 100 && r == Clock(minutes, secs)
    ensures AllDigits(r[..|r| - 3]) && ParseDigits(r[..|r| - 3]) == minutes
  {
    var mm := TwoDigits(minutes);
    assert r[..|r| - 3] == mm;
    assert ParseDigits(mm) == minutes;
  }

  lemma ClockLength(minutes: nat, secs: nat)
    requires secs < 100 && minutes < 100
    ensures |Clock(minutes, secs)| == 5
  {
  }

  lemma ClockSeconds(minutes: nat, secs: nat, r: string)
    requires secs < 100 && r == Clock(minutes, secs)
    ensures AllDigits(r[|r| - 2..]) && ParseDigits(r[|r| - 2..]) == secs
  {
    var ss := TwoDigits(secs);
    assert r[|r| - 2..] == ss;
    assert ParseDigits(ss) == secs;
  }

  /** `formatTime`: whole minutes and remaining seconds, each padded to two digits. */
  function FormatTime(seconds: nat): (r: string)
    ensures |r| >= 5 && r[|r| - 3] == ':'
  {
    Clock(seconds / 60, seconds % 60)
  }

  /** The clock text is the minute count in digits, a colon, and exactly two
      digits for the remaining seconds; it is five characters long below
      100 minutes. */
  lemma FormatTimeShape(seconds: nat, r: string)
    requires r == FormatTime(seconds)
    ensures AllDigits(r[..|r| - 3]) && ParseDigits(r[..|r| - 3]) == seconds / 60
    ensures AllDigits(r[|r| - 2..]) && ParseDigits(r[|r| - 2..]) == seconds % 60
    ensures seconds < 6000 ==> |r| == 5
    ensures |r| > 5 ==> r[0] != '0'
  {
    ClockMinutes(seconds / 60, seconds % 60, r);
    ClockSeconds(seconds / 60, seconds % 60, r);
    if seconds < 6000 {
      ClockLength(seconds / 60, seconds % 60);
    }
  }

  /** Reads a clock text back: digits, a colon, two digits below 60. */
  function ParseTime(t: string): Option<nat> {
    if |t| < 4 || t[|t| - 3] != ':' then None
    else
      var mm := t[..|t| - 3];
      var ss := t[|t| - 2..];
      if AllDigits(mm) && AllDigits(ss) && ParseDigits(ss) < 60 then Some(ParseDigits(mm) * 60 + ParseDigits(ss))
      else None
  }

  /** A clock text whose digit fields hold the minutes and the remaining
      seconds of `seconds` reads back as `seconds`. */
  lemma ParseClock(t: string, seconds: nat)
    requires |t| >= 5 && t[|t| - 3] == ':'
    requires AllDigits(t[..|t| - 3]) && ParseDigits(t[..|t| - 3]) == seconds / 60
    requires AllDigits(t[|t| - 2..]) && ParseDigits(t[|t| - 2..]) == seconds % 60
    ensures ParseTime(t) == Some(seconds)
  {
  }

  /** The clock text determines the time it shows. */
  lemma FormatTimeRoundTrip(seconds: nat)
    ensures ParseTime(FormatTime(seconds)) == Some(seconds)
  {
    var r := FormatTime(seconds);
    FormatTimeShape(seconds, r);
    ParseClock(r, seconds);
  }

  lemma FormatTimeInjective(a: nat, b: nat)
    ensures a != b ==> FormatTime(a) != FormatTime(b)
  {
    FormatTimeRoundTrip(a);
    FormatTimeRoundTrip(b);
  }

  datatype Stats = Stats(total: int, known: int, difficult: int, unknown: int, bookmarked: int)

  /** The ids rated `st`. */
  function Rated(status: map<string, Status>, st: Status): set<string> {
    set id | id in status && status[id] == st
  }

  /** Number of cards rated `st`, counted over the rating map as `Object.values` does. */
  function CountRated(status: map<string, Status>, st: Status): (n: nat)
    ensures n <= |status.Keys|
    ensures (forall id :: id in status ==> status[id] != st) ==> n == 0
  {
    Seqs.SubsetCardinality(Rated(status, st), status.Keys);
    |Rated(status, st)|
  }

  lemma RatedUpdate(m: map<string, Status>, id: string, st: Status)
    ensures Rated(m[id := st], st) == Rated(m, st) + {id}
  {
    var updated := m[id := st];
    forall x | x in Rated(updated, st) ensures x in Rated(m, st) + {id} {
      if x != id {
        assert updated[x] == m[x];
      }
    }
  }

  /** Setting one id's rating to `st` adds one to the count of `st` unless
      that id already had it. */
  lemma CountRatedUpdate(m: map<string, Status>, id: string, st: Status)
    ensures CountRated(m[id := st], st) == CountRated(m, st) + (if id in m && m[id] == st then 0 else 1)
  {
    RatedUpdate(m, id, st);
    if id in m && m[id] == st {
      assert id in Rated(m, st);
      assert Rated(m, st) + {id} == Rated(m, st);
    } else {
      assert id !in Rated(m, st);
    }
  }

  /** Rating the card on screen with a status it does not have yet adds one
      to that status's count in the summary. */
  lemma RatingCounts(s: State, rating: Label)
    requires CurrentCard(s).Some?
    requires var id := CurrentCard(s).value.id; !(id in s.status && s.status[id] == rating)
    ensures rating == Known ==> StatsOf(UpdateCardStatus(s, rating)).known == StatsOf(s).known + 1
    ensures rating == Difficult ==> StatsOf(UpdateCardStatus(s, rating)).difficult == StatsOf(s).difficult + 1
  {
    CountRatedUpdate(s.status, CurrentCard(s).value.id, rating);
  }

  /** The `stats` summary. */
  function StatsOf(s: State): (r: Stats)
    ensures r.total == |Deck(s)| && r.bookmarked == |s.bookmarks|
    ensures r.known == CountRated(s.status, Known) && r.difficult == CountRated(s.status, Difficult)
  {
    var total := |Deck(s)|;
    var known := CountRated(s.status, Known);
    var difficult := CountRated(s.status, Difficult);
    Stats(total, known, difficult, total - known - difficult, |s.bookmarks|)
  }

  lemma {:induction false} IdsBound(cards: seq<Pairing.Flashcard>)
    ensures |Ids(cards)| <= |cards|
    decreases |cards|
  {
    if cards != [] {
      var last := cards[|cards| - 1];
      var init := cards[..|cards| - 1];
      IdsBound(init);
      assert cards == init + [last];
      assert Ids(cards) == Ids(init) + {last.id};
    }
  }

  /** In a valid session the counts partition the deck: none is negative,
      they add up to the deck size, and no more cards are bookmarked than
      the deck holds. */
  lemma StatsBalanced(s: State)
    requires Valid(s)
    ensures var r := StatsOf(s);
      && r.known + r.difficult + r.unknown == r.total
      && 0 <= r.known && 0 <= r.difficult && 0 <= r.unknown
      && 0 <= r.bookmarked <= r.total
  {
    var k := Rated(s.status, Known);
    var d := Rated(s.status, Difficult);
    assert k !! d;
    assert k + d <= s.status.Keys;
    assert |k + d| == |k| + |d|;
    Seqs.SubsetCardinality(k + d, s.status.Keys);
    IdsBound(s.cards);
    DeckIds(s);
    Seqs.SubsetCardinality(s.bookmarks, Ids(s.cards));
    assert |multiset(Deck(s))| == |multiset(s.cards)|;
    assert |Deck(s)| == |s.cards|;
  }

  /** A freshly restarted session reports every card as not reviewed. */
  lemma StatsAfterReset(s: State)
    ensures var r := StatsOf(Reset(s));
      r.known == 0 && r.difficult == 0 && r.unknown == r.total
  {
    var t := Reset(s);
    assert Rated(t.status, Known) == {};
    assert Rated(t.status, Difficult) == {};
  }

  /** The position badge `index + 1 / deck length`. */
  function PositionLabel(s: State): (r: string)
    ensures |Deck(s)| == 0 && s.index == 0 ==> r == "1/0"
  {
    NatToString(s.index + 1) + "/" + NatToString(|Deck(s)|)
  }

  /** The badge reads back as the one-based position and the deck size,
      split at its only slash. */
  lemma PositionLabelReadsBack(s: State)
    ensures var r := PositionLabel(s);
      exists k :: 0 < k < |r| - 1 && r[k] == '/'
        && r[..k] == NatToString(s.index + 1) && r[k + 1..] == NatToString(|Deck(s)|)
        && AllDigits(r[..k]) && ParseDigits(r[..k]) == s.index + 1
        && AllDigits(r[k + 1..]) && ParseDigits(r[k + 1..]) == |Deck(s)|
  {
    var a := NatToString(s.index + 1);
    var b := NatToString(|Deck(s)|);
    var r := PositionLabel(s);
    var k := |a|;
    assert r[..k] == a;
    assert r[k + 1..] == b;
    ParseNatToString(s.index + 1);
    ParseNatToString(|Deck(s)|);
  }
}

=== FILE: text.dfy ===
/** String helpers the two pages rely on: decimal rendering of a number
    (`Number.prototype.toString`), `padStart`, `toLowerCase` restricted to
    ASCII, and `String.prototype.includes`. */
module Text {

  predicate IsDigit(c: char) {
    '0' <= c <= '9'
  }

  predicate AllDigits(s: string) {
    forall i :: 0 <= i < |s| ==> IsDigit(s[i])
  }

  function DigitChar(d: nat): (c: char)
    requires d < 10
    ensures IsDigit(c)
  {
    (('0' as int) + d) as char
  }

  function DigitValue(c: char): (d: nat)
    requires IsDigit(c)
    ensures d < 10
    ensures DigitChar(d) == c
  {
    (c as int) - ('0' as int)
  }

  /** The decimal numeral of `n`, without leading zeros. */
  function NatToString(n: nat): (r: string)
    ensures |r| >= 1
    ensures AllDigits(r)
    ensures |r| > 1 ==> r[0] != '0'
    ensures n < 10 <==> |r| == 1
    ensures n < 100 ==> |r| <= 2
    decreases n
  {
    if n < 10 then [DigitChar(n)] else NatToString(n / 10) + [DigitChar(n % 10)]
  }

  /** The value of a decimal numeral; leading zeros contribute nothing. */
  function ParseDigits(s: string): nat
    requires AllDigits(s)
    decreases |s|
  {
    if s == [] then 0 else ParseDigits(s[..|s| - 1]) * 10 + DigitValue(s[|s| - 1])
  }

  lemma {:induction false} ParseNatToString(n: nat)
    ensures ParseDigits(NatToString(n)) == n
    decreases n
  {
    var r := NatToString(n);
    if n >= 10 {
      ParseNatToString(n / 10);
      assert r[..|r| - 1] == NatToString(n / 10);
    } else {
      assert r[..0] == [];
    }
  }

  lemma {:induction false} ParseLeadingZero(s: string)
    requires AllDigits(s)
    ensures ParseDigits("0" + s) == ParseDigits(s)
    decreases |s|
  {
    if s != [] {
      assert ("0" + s)[..|"0" + s| - 1] == "0" + s[..|s| - 1];
      ParseLeadingZero(s[..|s| - 1]);
    } else {
      assert ("0" + s)[..0] == [];
    }
  }

  /** `n` zero characters. */
  function Zeros(n: nat): (r: string)
    ensures |r| == n
    ensures AllDigits(r)
  {
    if n == 0 then [] else "0" + Zeros(n - 1)
  }

  /** `str.padStart(width, "0")`: left-pads with zeros up to `width`. */
  function PadZeros(s: string, width: nat): (r: string)
    ensures |r| == if |s| >= width then |s| else width
    ensures r[|r| - |s|..] == s
    ensures r[..|r| - |s|] == Zeros(|r| - |s|)
  {
    if |s| >= width then s else Zeros(width - |s|) + s
  }

  lemma {:induction false} ParseZerosPrefix(fill: nat, s: string)
    requires AllDigits(s)
    ensures AllDigits(Zeros(fill) + s)
    ensures ParseDigits(Zeros(fill) + s) == ParseDigits(s)
    decreases fill
  {
    if fill > 0 {
      assert Zeros(fill) + s == "0" + (Zeros(fill - 1) + s);
      ParseZerosPrefix(fill - 1, s);
      ParseLeadingZero(Zeros(fill - 1) + s);
    } else {
      assert Zeros(fill) + s == s;
    }
  }

  lemma ParsePadZeros(s: string, width: nat)
    requires AllDigits(s)
    ensures AllDigits(PadZeros(s, width))
    ensures ParseDigits(PadZeros(s, width)) == ParseDigits(s)
  {
    if |s| < width {
      ParseZerosPrefix(width - |s|, s);
    }
  }

  /** `n.toString().padStart(2, "0")`. */
  function TwoDigits(n: nat): (r: string)
    ensures |r| >= 2 && AllDigits(r)
    ensures n < 100 ==> |r| == 2
    ensures ParseDigits(r) == n
    ensures n >= 10 ==> r == NatToString(n)
    ensures n < 10 ==> r == "0" + NatToString(n)
    ensures |r| > 2 ==> r[0] != '0'
  {
    ParsePadZeros(NatToString(n), 2);
    ParseNatToString(n);
    PadZeros(NatToString(n), 2)
  }

  /** `toLowerCase` on the ASCII range; other characters are left alone. */
  function LowerChar(c: char): (r: char)
    ensures 'A' <= c <= 'Z' ==> r as int == c as int + 32
    ensures !('A' <= c <= 'Z') ==> r == c
  {
    if 'A' <= c <= 'Z' then ((c as int) + 32) as char else c
  }

  function Lower(s: string): (r: string)
    ensures |r| == |s|
    ensures forall i :: 0 <= i < |s| ==> r[i] == LowerChar(s[i])
  {
    seq(|s|, i requires 0 <= i < |s| => LowerChar(s[i]))
  }

  /** `needle` occurs in `hay` starting at position `i`. */
  predicate OccursAt(hay: string, needle: string, i: nat) {
    i + |needle| <= |hay| && hay[i..i + |needle|] == needle
  }

  /** `hay.includes(needle)`; the empty needle occurs everywhere. */
  function Contains(hay: string, needle: string): (r: bool)
    ensures r <==> exists i: nat :: OccursAt(hay, needle, i)
    decreases |hay|
  {
    if |needle| > |hay| then
      assert forall i: nat :: !OccursAt(hay, needle, i);
      false
    else if hay[..|needle|] == needle then
      assert OccursAt(hay, needle, 0);
      true
    else
      var rest := Contains(hay[1..], needle);
      ShiftOccurrence(hay, needle);
      rest
  }

  lemma ShiftOccurrence(hay: string, needle: string)
    requires |hay| >= |needle|
    requires hay[..|needle|] != needle
    ensures (exists i: nat :: OccursAt(hay, needle, i)) <==> (exists i: nat :: OccursAt(hay[1..], needle, i))
  {
    if exists i: nat :: OccursAt(hay, needle, i) {
      var i: nat :| OccursAt(hay, needle, i);
      assert i != 0;
      assert hay[1..][i - 1..i - 1 + |needle|] == hay[i..i + |needle|];
      assert OccursAt(hay[1..], needle, i - 1);
    }
    if exists i: nat :: OccursAt(hay[1..], needle, i) {
      var i: nat :| OccursAt(hay[1..], needle, i);
      assert hay[1..][i..i + |needle|] == hay[i + 1..i + 1 + |needle|];
      assert OccursAt(hay, needle, i + 1);
    }
  }
}

=== FILE: wrappers.dfy ===
/** The optional value used where the components work with `undefined` or `null`. */
module Wrappers {

  datatype Option<+T> = None | Some(value: T) {

    /** Returns the value in Some, or the given default for None. */
    function GetOr(default: T): (r: T)
      ensures Some? ==> r == value
      ensures None? ==> r == default
    {
      match this
      case Some(v) => v
      case None => default
    }
  }
}
